=== FILE: README.md ===
# Ampi-Loteria core in Dafny

A Dafny model of the three pieces of logic in the Ampi-Loteria web app that
do more than move data around:

- **Number search** (`number_search.dfy`, `src/components/lottery/number-management.tsx`).
  The direct filter keeps a number that ends with the search term, or whose name contains it,
  ignoring case. When that filter finds nothing for a non-blank term, the suggestion engine
  (`getSimilarEndings`) collects the terminations of every stored number. It admits the ones
  that contain the term, or that have the term's length and are numerically within 2 of it. It
  drops the term itself and deduplicates the rest in `Set` insertion order. Finally it sorts
  them by the composite score `distance + 2·lengthDiff + 5·(does not contain)` and keeps the
  first five. The model has both a functional definition (`SimilarEndings`) and the loops as
  written (`ComputeSimilarEndings`, `AddEndings`, `AdmitEnding`), and the method is proved to
  compute the function.
- **Bulk import and export** (`bulk_transfer.dfy`, `src/app/dashboard/page.tsx`).
  Import splits the text into lines and drops blank ones. A text with no non-blank line is an error. Each line
  gives its first two comma-separated fields, trimmed, and the line counts only when both are
  non-empty. The values are grouped into one list per name, in encounter order; this is the corrected grouping of
  the row under "## Findings", and `ImportAsWritten` models the handler as written. Export writes
  one `name,number` line per stored number. It reports "no data" when there are no lotteries,
  no user, or no numbers.
- **Lottery card** (`lottery_card.dfy`, `src/components/dashboard/lottery-card.tsx`).
  The range shows the minimum and maximum of the numbers that `parseInt` accepts. It is
  computed only for a signed-in user and a positive `numberCount`, and it is displayed as
  `min - max`. The module also covers the Spanish status label and the badge classes, each
  with a default for unknown statuses.

Shared modules:

- `js_text.dfy` holds the JavaScript string primitives the code relies on: `trim`, `split`,
  `endsWith`, `includes`, `toLowerCase`, `parseInt` and `${n}`.
- `seqs.dfy` holds `filter`, an insertion-ordered `Set`, and `slice(0, n)`.
- `stable_sort.dfy` holds `Array.prototype.sort` with the numeric comparator.
- `wrappers.dfy` holds `Option`. `None` is JavaScript's `undefined` or `NaN`.

Behaviour of the code that the model keeps as written:

- **Unparseable score.** When a termination or the term does not parse, its score is `NaN`
  (`Math.abs(NaN - x)`), not 0. A comparator result of `NaN` reads as "equal". When every
  score is a number the model's stable insertion sort gives exactly the engine's order. When
  some scores are `NaN` the comparator is inconsistent, and the order is left to the engine's
  implementation. The insertion sort is then one result the language allows: for scores 5,
  `NaN`, 3 it gives 3, 5, `NaN`, while an engine that only compares neighbours keeps the input.
  The model therefore claims ordering only when every score is a number.
- **Ties.** Nothing breaks ties lexicographically. The sort is stable, so ties keep `Set`
  insertion order (`SimilarEndingsTiesKeepInsertionOrder`).
- **Digit-free values.** A termination without digits has no numeric score. It is still
  admitted when it contains the term.
- **Cached count.** The card computes a range only when the cached `numberCount` is positive,
  although it then fetches the numbers themselves. `FetchNumberRange` keeps that gate.

## Model

| member | source | states |
|---|---|---|
| NumberSearch.DirectFilter | src/components/lottery/number-management.tsx:60-63 | an entry is kept exactly when its number ends with the term or its name contains it ignoring case, as often as it occurs; a nameless entry is kept only through its number |
| NumberSearch.DirectFilterKeepsOrder | src/components/lottery/number-management.tsx:60-63 | the filter result is a subsequence of the store order |
| NumberSearch.EmptyTermShowsAll | src/components/lottery/number-management.tsx:60-61 | the empty term matches every number, so all entries are shown unchanged |
| NumberSearch.EndingsAreSuffixes | src/components/lottery/number-management.tsx:76-77 | `numStr.slice(-i)` for `i` from 1 to the length yields exactly the non-empty strings the number ends with |
| NumberSearch.AllEndingsAreSuffixes | src/components/lottery/number-management.tsx:72-77 | the terminations enumerated over all entries are exactly the non-empty suffixes of some stored number |
| NumberSearch.AdmissionCases | src/components/lottery/number-management.tsx:78-90 | the term itself is never admitted; any other termination containing it is; one that does not contain it needs the term's length and a parsed value within 2; an admitted termination is never shorter than the term |
| NumberSearch.AdmissionContaining | src/components/lottery/number-management.tsx:86-90 | for the term `12`, the termination `912` is admitted because it contains the term |
| NumberSearch.Score | src/components/lottery/number-management.tsx:105-114 | the score is a number exactly when both the termination and the term parse; it is never negative, at least 5 without containment, and 0 exactly for the same value, the same length and containment |
| NumberSearch.SimilarEndings | src/components/lottery/number-management.tsx:66-118 | at most five suggestions, and none for a blank term |
| NumberSearch.Suggestions | src/components/lottery/number-management.tsx:121-123 | suggestions appear only for a non-blank term whose direct filter is empty |
| NumberSearch.RankedIsPermutation | src/components/lottery/number-management.tsx:69-117 | the sorted candidates are a reordering of the `Set` contents: each admitted termination exactly once |
| NumberSearch.SuggestionIsRanked | src/components/lottery/number-management.tsx:96-118 | every suggestion is one of the sorted candidates |
| NumberSearch.SimilarEndingsDistinct | src/components/lottery/number-management.tsx:69-91 | no suggestion repeats and the term itself is never suggested |
| NumberSearch.SimilarEndingsAreEndings | src/components/lottery/number-management.tsx:72-91 | every suggestion is a non-empty termination of a stored number |
| NumberSearch.SimilarEndingsAdmission | src/components/lottery/number-management.tsx:78-92 | every suggestion contains the term, or has its length and parses to an integer within 2 of the term's |
| NumberSearch.SimilarEndingsCount | src/components/lottery/number-management.tsx:69-118 | exactly min(5, number of distinct admitted terminations) suggestions; with fewer than five, every admitted termination is suggested |
| NumberSearch.FullyNumericScores | src/components/lottery/number-management.tsx:97-116 | when the term and every admitted termination parse, every comparator score is a number |
| NumberSearch.SimilarEndingsRanked | src/components/lottery/number-management.tsx:96-118 | when every score is a number, the suggestions come in non-decreasing score order |
| NumberSearch.SimilarEndingsAreLowest | src/components/lottery/number-management.tsx:96-118 | when every score is a number, no suggestion scores higher than any candidate that `slice(0, 5)` cuts off |
| NumberSearch.SimilarEndingsTiesKeepInsertionOrder | src/components/lottery/number-management.tsx:69-117 | suggestions of equal score keep candidate order, and candidates are in order of their first enumeration |
| NumberSearch.ExactMatchExclusionUnreachableWhenGated | src/components/lottery/number-management.tsx:78 | when the direct filter is empty no termination equals the term, so the exact-match exclusion never fires on the gated path |
| NumberSearch.PoolIsCandidates | src/components/lottery/number-management.tsx:69-96 | adding admitted terminations to a `Set` one at a time equals filtering and then deduplicating in first-occurrence order |
| NumberSearch.AddEndings | src/components/lottery/number-management.tsx:73-93 | the inner loop leaves the `Set` as the pool after offering every termination of the number, shortest first |
| NumberSearch.ComputeSimilarEndings | src/components/lottery/number-management.tsx:66-119 | the loops, sort and slice as written compute exactly `SimilarEndings` |
| StableSort.Sort | src/components/lottery/number-management.tsx:96-117 | the sort returns a permutation of its input |
| StableSort.SortIsSorted | src/components/lottery/number-management.tsx:97-116 | whenever two sorted elements both have a numeric score, the earlier score is not larger |
| StableSort.SortOrdersAll | src/components/lottery/number-management.tsx:97-116 | with every score numeric, every element of the result has a score and the scores never decrease |
| StableSort.SortIsStable | src/components/lottery/number-management.tsx:97-116 | with every score numeric, elements of equal score keep their input order |
| StableSort.OrderedPrefixIsLeast | src/components/lottery/number-management.tsx:96-118 | a prefix of a list ordered by numeric score holds no score above any score behind it |
| Seqs.Dedup | src/components/lottery/number-management.tsx:69-91 | the `Set` has no duplicates and holds exactly the added elements |
| Seqs.DedupKeepsFirstOccurrenceOrder | src/components/lottery/number-management.tsx:91-96 | `Array.from` of the `Set` lists elements in order of first insertion |
| Seqs.Take | src/components/lottery/number-management.tsx:118 | `slice(0, 5)` is a prefix of length min(5, length) |
| JsText.Trim | src/app/dashboard/page.tsx:65 | `trim` returns a string with no space at either end that is empty exactly when the input is all spaces, and leaves a trimmed string alone |
| JsText.TrimIsSlice | src/app/dashboard/page.tsx:65 | `trim` returns one contiguous slice of the input, and only spaces lie before and after it |
| JsText.Split | src/app/dashboard/page.tsx:50 | `split` yields at least one piece, and no piece holds the separator |
| JsText.JoinSplit | src/app/dashboard/page.tsx:50 | joining the pieces of `split` restores the text |
| JsText.ParseInt | src/components/dashboard/lottery-card.tsx:39 | a string without any digit is `NaN` |
| JsText.ParseIntDefined | src/components/dashboard/lottery-card.tsx:39 | `parseInt` is a number exactly when, after leading spaces, a digit comes first or a sign followed by a digit |
| JsText.ParseIntOfSignedDigits | src/components/dashboard/lottery-card.tsx:39 | after leading spaces and an optional `+` or `-`, the maximal run of digits gives the value, negated for `-`, and any text after it is ignored |
| JsText.ParseIntLetterFirst | src/components/dashboard/lottery-card.tsx:39 | `a5` is `NaN`: a letter before the digits stops the parse |
| JsText.ParseIntSpacesSignZeros | src/components/dashboard/lottery-card.tsx:39 | ` +07x` reads as 7: leading space, plus sign and leading zero are accepted and the trailing letter ignored |
| JsText.ParseIntOfIntToString | src/components/dashboard/lottery-card.tsx:46 | `parseInt` reads back the integer that `${n}` printed, whatever non-digit text follows |
| JsText.IntToString | src/components/dashboard/lottery-card.tsx:46 | `${n}` is a minus sign exactly for a negative `n`, followed by decimal digits whose value is the magnitude of `n`, with no leading zero except for 0 itself |
| BulkTransfer.ImportLines | src/app/dashboard/page.tsx:50 | a line is kept exactly when it is a non-blank piece of the split text, as many times as it occurs there; kept lines contain no newline and stay in text order |
| BulkTransfer.ParseLine | src/app/dashboard/page.tsx:65-66 | a contributing line gives a non-empty, trimmed, comma-free name and value taken from the line |
| BulkTransfer.LineWithoutCommaIsSkipped | src/app/dashboard/page.tsx:65-66 | a line without a comma contributes nothing |
| BulkTransfer.ParseLineFields | src/app/dashboard/page.tsx:65-66 | the record of `a,b` is the trimmed fields, and an empty field after trimming drops the line |
| BulkTransfer.ParseLineIgnoresExtraFields | src/app/dashboard/page.tsx:65 | a third field and anything after it do not change what the line contributes |
| BulkTransfer.RecordsComeFromLines | src/app/dashboard/page.tsx:64-72 | every record is what some kept line parses to, and every kept line that parses contributes its record |
| BulkTransfer.RecordsAppend | src/app/dashboard/page.tsx:64-72 | the records of two runs of lines are the records of the first followed by those of the second |
| BulkTransfer.Group | src/app/dashboard/page.tsx:62-72 | every record's name gets a list and no list is empty |
| BulkTransfer.GroupCollectsByName | src/app/dashboard/page.tsx:62-72 | one list per distinct name, holding that name's values in encounter order |
| BulkTransfer.Import | src/app/dashboard/page.tsx:50-72 | with the corrected grouping of the "## Findings" row, the import never fails as a whole, and every kept line that parses gives its name a list |
| BulkTransfer.GroupHasEveryLine | src/app/dashboard/page.tsx:64-72 | every line that parses gives its name a list in the grouping |
| BulkTransfer.ImportedCountIsDistinctNames | src/app/dashboard/page.tsx:50-98 | the import fails as empty exactly when every line is blank; the reported count is the number of distinct names |
| BulkTransfer.ImportedListsArePlain | src/app/dashboard/page.tsx:62-72 | imported names and values are plain fields and no list is empty |
| BulkTransfer.ImportExample | src/app/dashboard/page.tsx:50-72 | `A,1`, `B,2`, `A,3` import as list A = [1, 3] and list B = [2] |
| BulkTransfer.ImportAsWrittenAgrees | src/app/dashboard/page.tsx:62-72 | grouping into `{}` gives the modelled grouping whenever no name is an inherited object property |
| BulkTransfer.ImportAsWritten | src/app/dashboard/page.tsx:62-70 | the import as written differs from the grouping only by failing as a whole, and only on text that the grouping accepts |
| BulkTransfer.ImportAsWrittenAborts | src/app/dashboard/page.tsx:67-70 | one record named after an inherited object property makes the import as written fail |
| BulkTransfer.ImportAsWrittenRejectsConstructor | src/app/dashboard/page.tsx:67-70 | a well-formed line named `constructor` makes the import as written fail, where the intended grouping accepts it |
| BulkTransfer.Export | src/app/dashboard/page.tsx:116-160 | refused exactly without a user or without lotteries; a produced text is the concatenated lines and there is at least one number |
| BulkTransfer.ExportOutcomes | src/app/dashboard/page.tsx:128-160 | "no data" exactly when no lottery has a number; otherwise the text splits into one line per number plus the empty tail |
| BulkTransfer.ExportRecordsCount | src/app/dashboard/page.tsx:130-135 | one record per stored number |
| BulkTransfer.Serialize | src/app/dashboard/page.tsx:133-135 | the text is empty exactly without records, and otherwise ends with a newline |
| BulkTransfer.CsvContent | src/app/dashboard/page.tsx:128-135 | the export text is empty exactly when no lottery has a number, and otherwise ends with a newline |
| BulkTransfer.SplitSerialized | src/app/dashboard/page.tsx:133-135 | the exported text splits on newline into each record's line, in order, then one empty piece |
| BulkTransfer.ExportEmptyIffNoNumbers | src/app/dashboard/page.tsx:128-141 | the text is empty exactly when no lottery has a number |
| BulkTransfer.ParseLineText | src/app/dashboard/page.tsx:134 | a line `name,number` of plain fields is not blank and parses back to that record |
| BulkTransfer.ImportLinesOfSerialized | src/app/dashboard/page.tsx:50 | importing an exported text keeps every exported line, in order, and drops only the empty piece after the last line end |
| BulkTransfer.RecordsOfLineTexts | src/app/dashboard/page.tsx:64-72 | each exported line of plain fields contributes exactly its own record, in order |
| BulkTransfer.ImportOfSerialized | src/app/dashboard/page.tsx:50-72 | with the corrected grouping of the "## Findings" row, importing serialized plain records gives an empty-file error for no records and otherwise their grouping |
| BulkTransfer.ImportOfExport | src/app/dashboard/page.tsx:50-135 | importing an export of plain lotteries sees exactly the exported records |
| BulkTransfer.GroupOfExport | src/app/dashboard/page.tsx:130-135 | grouping the exported records gives, per name that has numbers, the numbers of all lotteries of that name in order |
| BulkTransfer.ExportThenImport | src/app/dashboard/page.tsx:50-135 | with the corrected grouping of the "## Findings" row, export then import: empty-file error without numbers, otherwise one list per name with numbers, holding those numbers |
| BulkTransfer.RecordsOfExport | src/app/dashboard/page.tsx:50-135 | the exported text of plain lotteries parses back into exactly the exported records, in order |
| BulkTransfer.ExportThenImportAsWritten | src/app/dashboard/page.tsx:50-135 | the handler as written reads an export back exactly as the corrected grouping does when no lottery is named after an inherited object property |
| BulkTransfer.ExportThenImportAsWrittenFails | src/app/dashboard/page.tsx:50-135 | the handler as written rejects an export as a whole when one lottery with numbers is named after an inherited object property |
| BulkTransfer.ExportThenImportDistinct | src/app/dashboard/page.tsx:50-135 | with the corrected grouping of the "## Findings" row and distinct lottery names, every lottery with numbers comes back as its own list, unchanged |
| BulkTransfer.GroupOfStoredLists | src/app/dashboard/page.tsx:75-90 | lotteries created one per imported list export back to those same lists |
| BulkTransfer.ReimportIsStable | src/app/dashboard/page.tsx:43-135 | with the corrected grouping of the "## Findings" row, importing, storing one lottery per list, exporting and importing again yields the same lists |
| LotteryCard.ParsedNumbersAreParses | src/components/dashboard/lottery-card.tsx:38-40 | a value is kept exactly when some number parses to it |
| LotteryCard.ParsedNumbersOfDecimals | src/components/dashboard/lottery-card.tsx:38-40 | numbers written in decimal all survive the `NaN` filter, unchanged and in order |
| LotteryCard.RangeOf | src/components/dashboard/lottery-card.tsx:41-46 | there is a range exactly when the parsed list is non-empty |
| LotteryCard.RangeOfIsMinMax | src/components/dashboard/lottery-card.tsx:41-45 | the sorted list's ends are members of the list, min ≤ max, and every value lies between them |
| LotteryCard.FetchNumberRange | src/components/dashboard/lottery-card.tsx:34-47 | a range is produced exactly for a signed-in user, a positive count and at least one parsing number |
| LotteryCard.RangeIsMinMax | src/components/dashboard/lottery-card.tsx:34-46 | a produced range is the minimum and maximum of the parsed values |
| LotteryCard.RangeAbsent | src/components/dashboard/lottery-card.tsx:34-43 | no range exactly when there is no user, the count is missing or not positive, or no number parses |
| LotteryCard.RangeText | src/components/dashboard/lottery-card.tsx:46 | the text starts with the minimum, readable by `parseInt` |
| LotteryCard.RangeTextReadsBack | src/components/dashboard/lottery-card.tsx:46 | both ends can be read back from `min - max` |
| LotteryCard.RangeAfterFetch | src/components/dashboard/lottery-card.tsx:30-47 | a fetch without a range keeps the shown text; a fetch with one shows a text that starts with its minimum |
| LotteryCard.StatusText | src/components/dashboard/lottery-card.tsx:95-106 | the label is `Desconocido` exactly for a status other than active, completed or cancelled |
| LotteryCard.StatusColor | src/components/dashboard/lottery-card.tsx:82-93 | the classes are the gray ones exactly for an unknown status |
| LotteryCard.StatusTextAndColorAgree | src/components/dashboard/lottery-card.tsx:82-106 | two statuses share a colour exactly when they share a label, and known statuses get distinct labels |

## Left out

- Firestore reads and writes (`getNumbers`, `createLottery`, `addNumber`) are outside the model. Their results become parameters: `numbers` and `lotteries` are the snapshots the store returned. The import is modelled up to the grouping it would store.
- Toasts, React state and effects, the file picker (`file.text()`), the `Blob` download and the file name with today's date are UI and I/O. The import's early return without a file or user does nothing visible and is not modelled.
- The asynchronous loops and their `try`/`catch` are not modelled: a lottery whose store call fails is skipped or logged. Only the generic import failure caused by inherited property names is modelled (`ImportAsWritten`).
- The lottery description `Lista importada con N números` and the `isWinner`/`drawnAt` fields written on import are left out. They are constant or display-only.
- The order of `Object.entries(data)` is left out, so the import's lists form a map. JavaScript lists integer-like names first in numeric order, then the others in insertion order, and only creation order depends on it.
- `parseInt` is decimal only. A `0x` prefix (read as hexadecimal) is not modelled, and neither is the precision loss of `number` beyond 2^53.
- JsText.IntToString: always prints plain decimal digits. For a magnitude of 10^21 or more, `${n}` prints exponent notation (`1e+21`), which the model does not produce.
- `toLowerCase` is modelled on ASCII letters only.
- A Dafny `char` is a Unicode scalar value, while a JavaScript string is a sequence of UTF-16 code units. A character outside the Basic Multilingual Plane is one Dafny `char` but two JavaScript code units, so `length` and `slice(-i)` differ from the model on strings holding one.
- NumberSearch.SimilarEndingsRanked: ordering is claimed only when the term and every admitted termination parse. With some scores `NaN` the comparator is inconsistent, and the engine's result depends on its sort algorithm. The model's insertion sort is then one possible outcome.
- LotteryCard.FetchNumberRange: `numberCount` is an optional integer; a non-integer or `NaN` count is not modelled.

## Findings

| source | as written | input that shows it | evidently intended | confidence | as-written member | corrected member |
|---|---|---|---|---|---|---|
| src/app/dashboard/page.tsx:62-70 | lists are grouped in a plain object literal, so `data[lotteryName]` finds an inherited property for names such as `constructor`, `toString` or `__proto__`; the list is never created and `push` throws, and the catch reports that the whole file could not be imported | the text `constructor,5` | every well-formed line is grouped under its name, whatever the name | high (not executed) | BulkTransfer.ImportAsWrittenRejectsConstructor | BulkTransfer.GroupCollectsByName |

=== FILE: bulk_transfer.dfy ===
/** The whole-account CSV-like transfer of the dashboard: import parses
    `name,number` lines into lists grouped by name, export writes one
    `name,number` line per stored number. There is no quoting or escaping:
    a comma or newline inside a name or number does not survive. */
module BulkTransfer {
  import opened Wrappers
  import opened JsText
  import opened Seqs

  /** One `name,number` line. */
  datatype Record = Record(name: string, value: string)

  /** A field the format carries unchanged: non-empty, without surrounding
      spaces, without a comma or a newline. */
  predicate IsPlainField(s: string) {
    s != "" && IsTrimmed(s) && ',' !in s && '\n' !in s
  }

  // ----------------------------------------------------------------- import

  predicate IsNonBlank(line: string) {
    Trim(line) != ""
  }

  function NonBlank(): string -> bool {
    line => IsNonBlank(line)
  }

  /** `text.split('\n').filter(line => line.trim())` */
  function ImportLines(text: string): (lines: seq<string>)
    ensures forall line :: line in lines ==> '\n' !in line
    ensures forall line :: line in lines <==> line in Split(text, '\n') && IsNonBlank(line)
    ensures IsSubsequence(lines, Split(text, '\n'))
    ensures forall line ::
      multiset(lines)[line] == if IsNonBlank(line) then multiset(Split(text, '\n'))[line] else 0
  {
    FilterIsSubsequence(NonBlank(), Split(text, '\n'));
    Filter(NonBlank(), Split(text, '\n'))
  }

  /** `const [lotteryName, number] = line.split(',').map(item => item.trim())`
      followed by `if (lotteryName && number)`: the first two fields, trimmed,
      contribute only when both are non-empty. A missing second field is
      `undefined`, which is falsy like the empty string. A contributed record
      has plain fields taken from the line. */
  function ParseLine(line: string): (r: Option<Record>)
    ensures r.Some? ==> r.value.name != "" && IsTrimmed(r.value.name) && ',' !in r.value.name
    ensures r.Some? ==> r.value.value != "" && IsTrimmed(r.value.value) && ',' !in r.value.value
    ensures r.Some? ==> forall c :: c in r.value.name + r.value.value ==> c in line
  {
    var fields := Split(line, ',');
    var name := Trim(fields[0]);
    var value := if |fields| >= 2 then Trim(fields[1]) else "";
    if name != "" && value != "" then Some(Record(name, value)) else None
  }

  /** A line without a comma has no second field and is skipped. */
  lemma LineWithoutCommaIsSkipped(line: string)
    requires ',' !in line
    ensures ParseLine(line) == None
  {
    SplitWithoutSeparator(line, ',');
  }

  /** The record is made of the first two pieces of the split line. */
  lemma ParseLineOfPieces(line: string, a: string, b: string)
    requires |Split(line, ',')| >= 2 && Split(line, ',')[0] == a && Split(line, ',')[1] == b
    ensures ParseLine(line)
         == if Trim(a) != "" && Trim(b) != "" then Some(Record(Trim(a), Trim(b))) else None
  {
  }

  /** The two comma-separated fields, trimmed, make the record, and
      surrounding spaces (the `\r` of a CRLF line end among them) are
      dropped. */
  lemma ParseLineFields(a: string, b: string)
    requires ',' !in a && ',' !in b
    ensures ParseLine(a + [','] + b)
         == if Trim(a) != "" && Trim(b) != "" then Some(Record(Trim(a), Trim(b))) else None
  {
    assert Split(a + [','] + b, ',') == [a, b] by {
      SplitAtFirstSeparator(a, ',', b);
      SplitWithoutSeparator(b, ',');
    }
    ParseLineOfPieces(a + [','] + b, a, b);
  }

  lemma SplitPastTwoFields(a: string, b: string, rest: string)
    requires ',' !in a && ',' !in b
    ensures Split(a + [','] + b + [','] + rest, ',') == [a, b] + Split(rest, ',')
  {
    assert a + [','] + b + [','] + rest == a + [','] + (b + [','] + rest);
    SplitAtFirstSeparator(a, ',', b + [','] + rest);
    SplitAtFirstSeparator(b, ',', rest);
  }

  /** A third field and anything after it are ignored. */
  lemma ParseLineIgnoresExtraFields(a: string, b: string, rest: string)
    requires ',' !in a && ',' !in b
    ensures ParseLine(a + [','] + b + [','] + rest) == ParseLine(a + [','] + b)
  {
    SplitPastTwoFields(a, b, rest);
    ParseLineOfPieces(a + [','] + b + [','] + rest, a, b);
    ParseLineFields(a, b);
  }

  /** The records of the contributing lines, in line order. */
  function ParseLines(lines: seq<string>): (parsed: seq<Option<Record>>)
    ensures |parsed| == |lines|
  {
    seq(|lines|, i requires 0 <= i < |lines| => ParseLine(lines[i]))
  }

  function Records(lines: seq<string>): seq<Record> {
    Present(ParseLines(lines))
  }

  /** The values recorded under `name`, in order. */
  function ValuesNamed(records: seq<Record>, name: string): seq<string> {
    if records == [] then []
    else
      var before := ValuesNamed(records[..|records| - 1], name);
      var r := records[|records| - 1];
      if r.name == name then before + [r.value] else before
  }

  /** The names occurring in `records`. */
  function Names(records: seq<Record>): set<string> {
    set r | r in records :: r.name
  }

  /** `data`: a list is created the first time its name is seen and each
      value is pushed onto the list of its name. */
  function Group(records: seq<Record>): (lists: map<string, seq<string>>)
    ensures forall i :: 0 <= i < |records| ==> records[i].name in lists
    ensures forall name :: name in lists ==> lists[name] != []
  {
    if records == [] then map[]
    else
      var prefix := records[..|records| - 1];
      var before := Group(prefix);
      var r := records[|records| - 1];
      assert forall i :: 0 <= i < |prefix| ==> records[i] == prefix[i];
      before[r.name := (if r.name in before then before[r.name] else []) + [r.value]]
  }

  /** Every record is what one of the lines parses to, and every line that
      parses contributes its record. */
  lemma RecordsComeFromLines(lines: seq<string>)
    ensures forall r :: r in Records(lines) ==> exists line :: line in lines && ParseLine(line) == Some(r)
    ensures forall line :: line in lines && ParseLine(line).Some? ==> ParseLine(line).value in Records(lines)
  {
    var parsed := ParseLines(lines);
    PresentValues(parsed);
    forall r | r in Records(lines)
      ensures exists line :: line in lines && ParseLine(line) == Some(r)
    {
      var i :| 0 <= i < |parsed| && parsed[i] == Some(r);
      assert lines[i] in lines;
    }
    forall line | line in lines && ParseLine(line).Some?
      ensures ParseLine(line).value in Records(lines)
    {
      var i :| 0 <= i < |lines| && lines[i] == line;
      assert parsed[i] == Some(ParseLine(line).value);
    }
  }

  /** Lines contribute independently and in order: the records of two
      blocks of lines are the records of the first, then those of the
      second. */
  lemma RecordsAppend(a: seq<string>, b: seq<string>)
    ensures Records(a + b) == Records(a) + Records(b)
  {
    ParseLinesAppend(a, b);
    PresentAppend(ParseLines(a), ParseLines(b));
  }

  lemma ParseLinesAppend(a: seq<string>, b: seq<string>)
    ensures ParseLines(a + b) == ParseLines(a) + ParseLines(b)
  {
    var ab := a + b;
    var left, right, joined := ParseLines(a), ParseLines(b), ParseLines(ab);
    forall i | 0 <= i < |ab|
      ensures joined[i] == (left + right)[i]
    {
      if i < |a| {
        assert ab[i] == a[i];
        assert joined[i] == ParseLine(ab[i]) && left[i] == ParseLine(a[i]);
      } else {
        assert ab[i] == b[i - |a|];
        assert joined[i] == ParseLine(ab[i]) && right[i - |a|] == ParseLine(b[i - |a|]);
      }
    }
    assert joined == left + right;
  }

  /** Grouping keeps every value and nothing else: there is one list per
      distinct name (compared exactly, case included), holding the values of
      that name's records in encounter order. */
  lemma {:induction false} GroupCollectsByName(records: seq<Record>)
    ensures Group(records).Keys == Names(records)
    ensures forall name :: name in Group(records) ==> Group(records)[name] == ValuesNamed(records, name)
    decreases |records|
  {
    if records != [] {
      var prefix := records[..|records| - 1];
      GroupCollectsByName(prefix);
      assert records == prefix + [records[|records| - 1]];
      assert Names(records) == Names(prefix) + {records[|records| - 1].name};
      forall name | name in Names(prefix) && name != records[|records| - 1].name
        ensures ValuesNamed(records, name) == ValuesNamed(prefix, name)
      {
      }
      if records[|records| - 1].name !in Names(prefix) {
        ValuesNamedAbsent(prefix, records[|records| - 1].name);
      }
    }
  }

  lemma {:induction false} ValuesNamedAbsent(records: seq<Record>, name: string)
    requires name !in Names(records)
    ensures ValuesNamed(records, name) == []
    decreases |records|
  {
    if records != [] {
      var prefix := records[..|records| - 1];
      assert forall r :: r in prefix ==> r in records;
      ValuesNamedAbsent(prefix, name);
    }
  }

  /** Outcome of `handleImportAllData` before anything is stored. */
  datatype ImportOutcome =
    | EmptyFile                                   // "El archivo CSV está vacío."
    | Unreadable                                  // "No se pudo importar el archivo CSV."
    | Imported(lists: map<string, seq<string>>)

  /** Parses the imported text with the corrected grouping (see
      `GroupCollectsByName`): a text with no non-blank line is an error;
      otherwise the malformed lines are dropped silently. The handler as
      written is `ImportAsWritten`, which rejects the whole text instead when
      a name is an inherited object property. */
  function Import(text: string): (r: ImportOutcome)
    ensures !r.Unreadable?
    ensures r.Imported? ==> forall line :: line in ImportLines(text) && ParseLine(line).Some? ==>
      ParseLine(line).value.name in r.lists
  {
    var lines := ImportLines(text);
    if lines == [] then EmptyFile
    else
      GroupHasEveryLine(lines);
      Imported(Group(Records(lines)))
  }

  /** Every line that parses gives its name a list in the grouped map. */
  lemma GroupHasEveryLine(lines: seq<string>)
    ensures forall line :: line in lines && ParseLine(line).Some? ==>
      ParseLine(line).value.name in Group(Records(lines))
  {
    var records := Records(lines);
    RecordsComeFromLines(lines);
    forall rec | rec in records
      ensures rec.name in Group(records)
    {
      var i :| 0 <= i < |records| && records[i] == rec;
    }
  }

  /** `Object.keys(data).length`, the number of lists reported as imported. */
  function ImportedListCount(lists: map<string, seq<string>>): nat {
    |lists.Keys|
  }

  /** The reported count is the number of distinct names among the
      contributing lines, and the import fails exactly when every line of
      the text is blank. */
  lemma ImportedCountIsDistinctNames(text: string)
    ensures Import(text).EmptyFile? <==> forall line :: line in Split(text, '\n') ==> !IsNonBlank(line)
    ensures Import(text).Imported? ==>
      ImportedListCount(Import(text).lists) == |Names(Records(ImportLines(text)))|
  {
    var lines := ImportLines(text);
    if lines != [] {
      assert lines[0] in lines;
      GroupCollectsByName(Records(lines));
    }
  }

  /** Every imported name and value is a plain field and every list is
      non-empty, so an imported account can be exported again unchanged. */
  lemma ImportedListsArePlain(text: string)
    ensures Import(text).Imported? ==> PlainLists(Import(text).lists)
  {
    var records := Records(ImportLines(text));
    GroupCollectsByName(records);
    RecordsComeFromLines(ImportLines(text));
    forall r | r in records
      ensures IsPlainField(r.name) && IsPlainField(r.value)
    {
      var line :| line in ImportLines(text) && ParseLine(line) == Some(r);
    }
    forall name | name in Group(records)
      ensures ValuesNamed(records, name) != []
      ensures forall v :: v in ValuesNamed(records, name) ==> IsPlainField(v)
    {
      ValuesNamedArePlain(records, name);
    }
  }

  lemma {:induction false} ValuesNamedArePlain(records: seq<Record>, name: string)
    requires forall r :: r in records ==> IsPlainField(r.value)
    ensures forall v :: v in ValuesNamed(records, name) ==> IsPlainField(v)
    ensures name in Names(records) ==> ValuesNamed(records, name) != []
    decreases |records|
  {
    if records != [] {
      var prefix := records[..|records| - 1];
      assert records == prefix + [records[|records| - 1]];
      ValuesNamedArePlain(prefix, name);
      if name in Names(records) && records[|records| - 1].name != name {
        var r :| r in records && r.name == name;
        assert r in prefix;
      }
    }
  }

  /** The worked example of the format: values are grouped by name in
      encounter order. */
  function ExampleRecords(): seq<Record> {
    [Record("A", "1"), Record("B", "2"), Record("A", "3")]
  }

  lemma ExampleGroups()
    ensures Names(ExampleRecords()) == {"A", "B"}
    ensures ValuesNamed(ExampleRecords(), "A") == ["1", "3"]
    ensures ValuesNamed(ExampleRecords(), "B") == ["2"]
  {
    var records := ExampleRecords();
    var a1, b2 := records[0], records[1];
    assert "A" != "B" by {
      assert "A"[0] != "B"[0];
    }
    assert records[..2] == [a1, b2] && [a1, b2][..1] == [a1] && [a1][..0] == [];
    assert a1 in records && b2 in records;
    assert ValuesNamed([a1], "A") == ["1"];
    assert ValuesNamed([a1], "B") == [];
    assert ValuesNamed([a1, b2], "A") == ["1"];
    assert ValuesNamed([a1, b2], "B") == ["2"];
  }

  lemma ExampleText()
    ensures Serialize(ExampleRecords()) == "A,1\nB,2\nA,3\n"
    ensures forall r :: r in ExampleRecords() ==> IsPlainField(r.name) && IsPlainField(r.value)
  {
    var records := ExampleRecords();
    var a1, b2, a3 := records[0], records[1], records[2];
    assert Serialize([a3]) == "A,3\n" by {
      assert [a3][1..] == [];
    }
    assert Serialize([b2, a3]) == "B,2\n" + "A,3\n" by {
      assert [b2, a3][1..] == [a3];
    }
    assert records[1..] == [b2, a3];
  }

  lemma ImportExample()
    ensures Import("A,1\nB,2\nA,3\n").Imported?
    ensures Import("A,1\nB,2\nA,3\n").lists.Keys == {"A", "B"}
    ensures Import("A,1\nB,2\nA,3\n").lists["A"] == ["1", "3"]
    ensures Import("A,1\nB,2\nA,3\n").lists["B"] == ["2"]
  {
    ExampleText();
    ImportOfSerialized(ExampleRecords());
    GroupCollectsByName(ExampleRecords());
    ExampleGroups();
  }

  // ------------------------------------------- grouping on a plain object

  /** The properties every object literal inherits from `Object.prototype`.
      For such a name `data[lotteryName]` is an inherited function or object,
      so the list is never created and `push` is called on a value that has
      none: a `TypeError` that the outer `catch` turns into the generic import
      failure. */
  const InheritedNames: set<string> := {
    "constructor", "hasOwnProperty", "isPrototypeOf", "propertyIsEnumerable",
    "toLocaleString", "toString", "valueOf", "__proto__",
    "__defineGetter__", "__defineSetter__", "__lookupGetter__", "__lookupSetter__"
  }

  /** The import as written, grouping into `{}`: one record whose name is an
      inherited property aborts the whole import, whatever else the text
      holds. */
  function ImportAsWritten(text: string): (r: ImportOutcome)
    ensures r != Import(text) ==> r.Unreadable?
    ensures r.Unreadable? ==> Import(text).Imported?
  {
    var lines := ImportLines(text);
    if lines == [] then EmptyFile
    else
      var records := Records(lines);
      if exists i :: 0 <= i < |records| && records[i].name in InheritedNames then Unreadable
      else Imported(Group(records))
  }

  /** Away from inherited names the written import and the model agree. */
  lemma ImportAsWrittenAgrees(text: string)
    requires forall i :: 0 <= i < |Records(ImportLines(text))| ==>
      Records(ImportLines(text))[i].name !in InheritedNames
    ensures ImportAsWritten(text) == Import(text)
  {
  }

  /** One record with an inherited name is enough to abort the import as
      written. */
  lemma ImportAsWrittenAborts(text: string, records: seq<Record>, i: nat)
    requires Records(ImportLines(text)) == records
    requires i < |records| && records[i].name in InheritedNames
    ensures ImportAsWritten(text) == Unreadable
  {
    assert ImportLines(text) != [];
  }

  /** A list called `constructor` cannot be imported as written, although
      the line is well formed and the intended grouping accepts it. */
  lemma ImportAsWrittenRejectsConstructor()
    ensures ImportAsWritten("constructor,5\n") == Unreadable
    ensures Import("constructor,5\n") == Imported(Group([Record("constructor", "5")]))
  {
    var records := [Record("constructor", "5")];
    assert IsPlainField("constructor") && IsPlainField("5");
    assert Serialize(records) == "constructor,5\n" by {
      assert records[1..] == [];
    }
    ImportOfSerialized(records);
    assert Records(ImportLines("constructor,5\n")) == records by {
      ImportLinesOfSerialized(records);
      RecordsOfLineTexts(records);
    }
    ImportAsWrittenAborts("constructor,5\n", records, 0);
  }

  // ----------------------------------------------------------------- export

  /** A lottery with the numbers the store returned for it. */
  datatype LotteryNumbers = LotteryNumbers(name: string, numbers: seq<string>)

  function RecordsOf(lottery: LotteryNumbers): seq<Record> {
    seq(|lottery.numbers|, i requires 0 <= i < |lottery.numbers| => Record(lottery.name, lottery.numbers[i]))
  }

  /** One record per number, lottery by lottery and in number order. */
  function ExportRecords(lotteries: seq<LotteryNumbers>): seq<Record> {
    if lotteries == [] then []
    else ExportRecords(lotteries[..|lotteries| - 1]) + RecordsOf(lotteries[|lotteries| - 1])
  }

  /** `${lottery.name},${numberObj.number}` without its line end. */
  function LineText(r: Record): string {
    r.name + [','] + r.value
  }

  /** The exported text: every record's line followed by `\n`. */
  function Serialize(records: seq<Record>): (text: string)
    ensures text == [] <==> records == []
    ensures text != [] ==> text[|text| - 1] == '\n'
  {
    if records == [] then ""
    else LineText(records[0]) + ['\n'] + Serialize(records[1..])
  }

  /** `csvContent` after the export loops. */
  function CsvContent(lotteries: seq<LotteryNumbers>): (text: string)
    ensures text == [] <==> NumberCount(lotteries) == 0
    ensures text != [] ==> text[|text| - 1] == '\n'
  {
    ExportRecordsCount(lotteries);
    Serialize(ExportRecords(lotteries))
  }

  /** Outcome of `handleExportAllData` before the download is offered. */
  datatype ExportOutcome =
    | NoLotteries                                 // "No hay datos para exportar."
    | NoNumbers                                   // "No se encontraron datos para exportar."
    | Csv(content: string)

  /** `handleExportAllData`: refused without a signed-in user or without
      lotteries; otherwise the text, unless no lottery has a number. The
      text is offered exactly as built. */
  function Export(signedIn: bool, lotteries: seq<LotteryNumbers>): (r: ExportOutcome)
    ensures r == NoLotteries <==> !signedIn || lotteries == []
    ensures r.Csv? ==> r.content == CsvContent(lotteries) && NumberCount(lotteries) > 0
  {
    if !signedIn || lotteries == [] then NoLotteries
    else
      var content := CsvContent(lotteries);
      ExportEmptyIffNoNumbers(lotteries);
      if content == "" then NoNumbers else Csv(content)
  }

  /** With a user and lotteries, the export reports "no data" exactly when
      no lottery has a number, and otherwise offers one line per number. */
  lemma ExportOutcomes(signedIn: bool, lotteries: seq<LotteryNumbers>)
    requires signedIn && lotteries != []
    ensures Export(signedIn, lotteries) == NoNumbers <==> NumberCount(lotteries) == 0
    ensures Export(signedIn, lotteries).Csv? ==>
      (forall r :: r in ExportRecords(lotteries) ==> '\n' !in r.name && '\n' !in r.value) ==>
        |Split(Export(signedIn, lotteries).content, '\n')| == NumberCount(lotteries) + 1
  {
    ExportEmptyIffNoNumbers(lotteries);
    ExportRecordsCount(lotteries);
    if Export(signedIn, lotteries).Csv? &&
      forall r :: r in ExportRecords(lotteries) ==> '\n' !in r.name && '\n' !in r.value
    {
      SplitSerialized(ExportRecords(lotteries));
    }
  }

  /** Numbers of every lottery called `name`, in export order. */
  function NumbersNamed(lotteries: seq<LotteryNumbers>, name: string): seq<string> {
    if lotteries == [] then []
    else
      var last := lotteries[|lotteries| - 1];
      NumbersNamed(lotteries[..|lotteries| - 1], name) + (if last.name == name then last.numbers else [])
  }

  /** Total count of numbers over all lotteries. */
  function NumberCount(lotteries: seq<LotteryNumbers>): nat {
    if lotteries == [] then 0
    else NumberCount(lotteries[..|lotteries| - 1]) + |lotteries[|lotteries| - 1].numbers|
  }

  /** Names and numbers are plain fields. */
  ghost predicate PlainLotteries(lotteries: seq<LotteryNumbers>) {
    forall l :: l in lotteries ==> IsPlainField(l.name) && forall v :: v in l.numbers ==> IsPlainField(v)
  }

  lemma {:induction false} ExportRecordsCount(lotteries: seq<LotteryNumbers>)
    ensures |ExportRecords(lotteries)| == NumberCount(lotteries)
    decreases |lotteries|
  {
    if lotteries != [] {
      ExportRecordsCount(lotteries[..|lotteries| - 1]);
    }
  }

  lemma {:induction false} ExportRecordsArePlain(lotteries: seq<LotteryNumbers>)
    requires PlainLotteries(lotteries)
    ensures forall r :: r in ExportRecords(lotteries) ==> IsPlainField(r.name) && IsPlainField(r.value)
    decreases |lotteries|
  {
    if lotteries != [] {
      var prefix := lotteries[..|lotteries| - 1];
      var last := lotteries[|lotteries| - 1];
      assert forall l :: l in prefix ==> l in lotteries;
      ExportRecordsArePlain(prefix);
      forall r | r in RecordsOf(last)
        ensures IsPlainField(r.name) && IsPlainField(r.value)
      {
        var i :| 0 <= i < |RecordsOf(last)| && RecordsOf(last)[i] == r;
        assert last.numbers[i] in last.numbers;
      }
    }
  }

  /** The lines of a serialized text. */
  function LineTexts(records: seq<Record>): (lines: seq<string>)
    ensures |lines| == |records|
  {
    seq(|records|, i requires 0 <= i < |records| => LineText(records[i]))
  }

  /** Splitting an exported text on `\n` gives exactly one line per record,
      then the empty piece after the final line end. */
  lemma {:induction false} SplitSerialized(records: seq<Record>)
    requires forall r :: r in records ==> '\n' !in r.name && '\n' !in r.value
    ensures Split(Serialize(records), '\n') == LineTexts(records) + [""]
    decreases |records|
  {
    if records != [] {
      var rest := records[1..];
      assert forall r :: r in rest ==> r in records;
      SplitSerialized(rest);
      assert '\n' !in LineText(records[0]) by {
        assert records[0] in records;
      }
      SplitAtFirstSeparator(LineText(records[0]), '\n', Serialize(rest));
      assert LineTexts(records) == [LineText(records[0])] + LineTexts(rest);
    }
  }

  /** The text is empty exactly when there are no numbers: the "no data"
      case of the export. */
  lemma ExportEmptyIffNoNumbers(lotteries: seq<LotteryNumbers>)
    ensures CsvContent(lotteries) == "" <==> NumberCount(lotteries) == 0
  {
    ExportRecordsCount(lotteries);
  }

  /** A plain record's line parses back to that record. */
  lemma ParseLineText(r: Record)
    requires IsPlainField(r.name) && IsPlainField(r.value)
    ensures ParseLine(LineText(r)) == Some(r)
    ensures IsNonBlank(LineText(r))
  {
    ParseLineFields(r.name, r.value);
    assert LineText(r)[|r.name|] == ',';
  }

  lemma {:induction false} RecordsOfLineTexts(records: seq<Record>)
    requires forall r :: r in records ==> IsPlainField(r.name) && IsPlainField(r.value)
    ensures Records(LineTexts(records)) == records
  {
    var parsed := ParseLines(LineTexts(records));
    forall i | 0 <= i < |records|
      ensures parsed[i] == Some(records[i])
    {
      assert records[i] in records;
      ParseLineText(records[i]);
    }
    assert parsed == seq(|records|, i requires 0 <= i < |records| => Some(records[i]));
    PresentOfAllSome(records);
  }

  /** Every line of an export is non-blank. */
  lemma LineTextsAreNonBlank(records: seq<Record>)
    requires forall r :: r in records ==> IsPlainField(r.name) && IsPlainField(r.value)
    ensures forall line :: line in LineTexts(records) ==> NonBlank()(line)
  {
    var lines := LineTexts(records);
    forall line | line in lines
      ensures NonBlank()(line)
    {
      var i :| 0 <= i < |lines| && lines[i] == line;
      assert records[i] in records;
      ParseLineText(records[i]);
    }
  }

  /** The import keeps every line of an export and drops only the empty
      piece after the final line end. */
  lemma ImportLinesOfSerialized(records: seq<Record>)
    requires forall r :: r in records ==> IsPlainField(r.name) && IsPlainField(r.value)
    ensures ImportLines(Serialize(records)) == LineTexts(records)
  {
    var lines := LineTexts(records);
    SplitSerialized(records);
    FilterAppend(NonBlank(), lines, [""]);
    LineTextsAreNonBlank(records);
    FilterKeepsAll(NonBlank(), lines);
    assert Filter(NonBlank(), [""]) == [] by {
      assert [""][..0] == [];
    }
  }

  /** Importing an export finds exactly the exported records, in order:
      the text is empty when there are no numbers, and otherwise every
      line contributes its record. */
  lemma ImportOfSerialized(records: seq<Record>)
    requires forall r :: r in records ==> IsPlainField(r.name) && IsPlainField(r.value)
    ensures Import(Serialize(records))
         == if records == [] then EmptyFile else Imported(Group(records))
  {
    ImportLinesOfSerialized(records);
    RecordsOfLineTexts(records);
  }

  lemma {:induction false} ValuesNamedAppend(a: seq<Record>, b: seq<Record>, name: string)
    ensures ValuesNamed(a + b, name) == ValuesNamed(a, name) + ValuesNamed(b, name)
    decreases |b|
  {
    if b == [] {
      assert a + b == a;
    } else {
      var b' := b[..|b| - 1];
      assert (a + b)[..|a + b| - 1] == a + b';
      ValuesNamedAppend(a, b', name);
    }
  }

  lemma {:induction false} ValuesNamedOfLottery(lottery: LotteryNumbers, name: string, n: nat)
    requires n <= |lottery.numbers|
    ensures ValuesNamed(RecordsOf(lottery)[..n], name)
         == if lottery.name == name then lottery.numbers[..n] else []
    decreases n
  {
    if n > 0 {
      ValuesNamedOfLottery(lottery, name, n - 1);
      assert RecordsOf(lottery)[..n][..n - 1] == RecordsOf(lottery)[..n - 1];
      assert lottery.numbers[..n] == lottery.numbers[..n - 1] + [lottery.numbers[n - 1]];
    }
  }

  lemma ValuesNamedOfRecordsOf(lottery: LotteryNumbers, name: string)
    ensures ValuesNamed(RecordsOf(lottery), name) == if lottery.name == name then lottery.numbers else []
  {
    ValuesNamedOfLottery(lottery, name, |lottery.numbers|);
    assert RecordsOf(lottery)[..|lottery.numbers|] == RecordsOf(lottery);
    assert lottery.numbers[..|lottery.numbers|] == lottery.numbers;
  }

  lemma {:induction false} ValuesNamedOfExport(lotteries: seq<LotteryNumbers>, name: string)
    ensures ValuesNamed(ExportRecords(lotteries), name) == NumbersNamed(lotteries, name)
    decreases |lotteries|
  {
    if lotteries != [] {
      var prefix := lotteries[..|lotteries| - 1];
      var last := lotteries[|lotteries| - 1];
      assert ExportRecords(lotteries) == ExportRecords(prefix) + RecordsOf(last);
      assert NumbersNamed(lotteries, name)
          == NumbersNamed(prefix, name) + (if last.name == name then last.numbers else []);
      ValuesNamedOfExport(prefix, name);
      ValuesNamedAppend(ExportRecords(prefix), RecordsOf(last), name);
      ValuesNamedOfRecordsOf(last, name);
    }
  }

  /** A name is exported exactly when some lottery of that name has a number. */
  lemma {:induction false} NamesOfExport(lotteries: seq<LotteryNumbers>, name: string)
    ensures name in Names(ExportRecords(lotteries)) <==>
      exists i :: 0 <= i < |lotteries| && lotteries[i].name == name && lotteries[i].numbers != []
    decreases |lotteries|
  {
    if lotteries != [] {
      var n := |lotteries| - 1;
      var prefix := lotteries[..n];
      var last := lotteries[n];
      NamesOfExport(prefix, name);
      assert Names(ExportRecords(lotteries)) == Names(ExportRecords(prefix)) + Names(RecordsOf(last));
      assert name in Names(RecordsOf(last)) <==> last.name == name && last.numbers != [] by {
        if last.numbers != [] {
          assert RecordsOf(last)[0] in RecordsOf(last);
        }
      }
      if exists i :: 0 <= i < |lotteries| && lotteries[i].name == name && lotteries[i].numbers != [] {
        var i :| 0 <= i < |lotteries| && lotteries[i].name == name && lotteries[i].numbers != [];
        if i < n {
          assert prefix[i] == lotteries[i];
        }
      }
      if exists i :: 0 <= i < n && prefix[i].name == name && prefix[i].numbers != [] {
        var i :| 0 <= i < n && prefix[i].name == name && prefix[i].numbers != [];
        assert lotteries[i] == prefix[i];
      }
    }
  }

  /** Exporting and importing again sees exactly the exported records. */
  lemma ImportOfExport(lotteries: seq<LotteryNumbers>)
    requires PlainLotteries(lotteries)
    ensures Import(CsvContent(lotteries))
         == if NumberCount(lotteries) == 0 then EmptyFile else Imported(Group(ExportRecords(lotteries)))
  {
    ExportRecordsCount(lotteries);
    ExportRecordsArePlain(lotteries);
    ImportOfSerialized(ExportRecords(lotteries));
  }

  /** Grouping the exported records collects, per name, the numbers of all
      lotteries of that name; names without numbers are absent. */
  lemma GroupOfExport(lotteries: seq<LotteryNumbers>)
    ensures forall name :: name in Group(ExportRecords(lotteries)) <==>
      exists i :: 0 <= i < |lotteries| && lotteries[i].name == name && lotteries[i].numbers != []
    ensures forall name :: name in Group(ExportRecords(lotteries)) ==>
      Group(ExportRecords(lotteries))[name] == NumbersNamed(lotteries, name)
  {
    var records := ExportRecords(lotteries);
    GroupCollectsByName(records);
    forall name
      ensures name in Names(records) <==>
        exists i :: 0 <= i < |lotteries| && lotteries[i].name == name && lotteries[i].numbers != []
      ensures ValuesNamed(records, name) == NumbersNamed(lotteries, name)
    {
      ValuesNamedOfExport(lotteries, name);
      NamesOfExport(lotteries, name);
    }
  }

  /** Round trip: importing an export of plain lotteries reproduces, for
      every name with at least one number, the numbers of all lotteries of
      that name in export order, and no other list. Without numbers the
      text is empty and the import reports an empty file. */
  lemma ExportThenImport(lotteries: seq<LotteryNumbers>)
    requires PlainLotteries(lotteries)
    ensures NumberCount(lotteries) == 0 ==> Import(CsvContent(lotteries)) == EmptyFile
    ensures NumberCount(lotteries) > 0 ==>
      && Import(CsvContent(lotteries)).Imported?
      && (forall name :: name in Import(CsvContent(lotteries)).lists <==>
            exists i :: 0 <= i < |lotteries| && lotteries[i].name == name && lotteries[i].numbers != [])
      && (forall name :: name in Import(CsvContent(lotteries)).lists ==>
            Import(CsvContent(lotteries)).lists[name] == NumbersNamed(lotteries, name))
  {
    ImportOfExport(lotteries);
    GroupOfExport(lotteries);
  }

  /** The text an export of plain lotteries produces reads back as exactly
      the exported records. */
  lemma RecordsOfExport(lotteries: seq<LotteryNumbers>)
    requires PlainLotteries(lotteries)
    ensures Records(ImportLines(CsvContent(lotteries))) == ExportRecords(lotteries)
  {
    ExportRecordsArePlain(lotteries);
    ImportLinesOfSerialized(ExportRecords(lotteries));
    RecordsOfLineTexts(ExportRecords(lotteries));
  }

  /** The round trip through the import as written: it agrees with the
      corrected grouping as long as no lottery is named after an inherited
      object property. */
  lemma ExportThenImportAsWritten(lotteries: seq<LotteryNumbers>)
    requires PlainLotteries(lotteries)
    requires forall i :: 0 <= i < |lotteries| ==> lotteries[i].name !in InheritedNames
    ensures ImportAsWritten(CsvContent(lotteries)) == Import(CsvContent(lotteries))
  {
    var records := ExportRecords(lotteries);
    RecordsOfExport(lotteries);
    forall k | 0 <= k < |records|
      ensures records[k].name !in InheritedNames
    {
      assert records[k].name in Names(records);
      NamesOfExport(lotteries, records[k].name);
    }
    ImportAsWrittenAgrees(CsvContent(lotteries));
  }

  /** One lottery with numbers and an inherited property name is enough to
      make the import as written reject the account's whole export. */
  lemma ExportThenImportAsWrittenFails(lotteries: seq<LotteryNumbers>, i: nat)
    requires PlainLotteries(lotteries)
    requires i < |lotteries| && lotteries[i].name in InheritedNames && lotteries[i].numbers != []
    ensures ImportAsWritten(CsvContent(lotteries)) == Unreadable
  {
    var records := ExportRecords(lotteries);
    RecordsOfExport(lotteries);
    NamesOfExport(lotteries, lotteries[i].name);
    var r :| r in records && r.name == lotteries[i].name;
    var k :| 0 <= k < |records| && records[k] == r;
    ImportAsWrittenAborts(CsvContent(lotteries), records, k);
  }

  /** No two lotteries share a name. */
  ghost predicate DistinctNames(lotteries: seq<LotteryNumbers>) {
    forall i, j :: 0 <= i < j < |lotteries| ==> lotteries[i].name != lotteries[j].name
  }

  lemma {:induction false} NumbersNamedAbsent(lotteries: seq<LotteryNumbers>, name: string)
    requires forall l :: l in lotteries ==> l.name != name
    ensures NumbersNamed(lotteries, name) == []
    decreases |lotteries|
  {
    if lotteries != [] {
      var prefix := lotteries[..|lotteries| - 1];
      assert forall l :: l in prefix ==> l in lotteries;
      NumbersNamedAbsent(prefix, name);
    }
  }

  lemma {:induction false} NumbersNamedDistinct(lotteries: seq<LotteryNumbers>, i: nat)
    requires DistinctNames(lotteries) && i < |lotteries|
    ensures NumbersNamed(lotteries, lotteries[i].name) == lotteries[i].numbers
    decreases |lotteries|
  {
    var n := |lotteries| - 1;
    var prefix := lotteries[..n];
    if i == n {
      forall l | l in prefix
        ensures l.name != lotteries[i].name
      {
        var j :| 0 <= j < n && prefix[j] == l;
      }
      NumbersNamedAbsent(prefix, lotteries[i].name);
    } else {
      NumbersNamedDistinct(prefix, i);
    }
  }

  /** An outcome that holds the numbers of each name holds, under distinct
      names, each lottery's own numbers. */
  lemma DistinctListsOfOutcome(lotteries: seq<LotteryNumbers>, outcome: ImportOutcome)
    requires DistinctNames(lotteries)
    requires NumberCount(lotteries) > 0 ==>
      && outcome.Imported?
      && (forall name :: name in outcome.lists <==>
            exists i :: 0 <= i < |lotteries| && lotteries[i].name == name && lotteries[i].numbers != [])
      && (forall name :: name in outcome.lists ==> outcome.lists[name] == NumbersNamed(lotteries, name))
    ensures forall i :: 0 <= i < |lotteries| && lotteries[i].numbers != [] ==>
      && outcome.Imported?
      && lotteries[i].name in outcome.lists
      && outcome.lists[lotteries[i].name] == lotteries[i].numbers
  {
    forall i | 0 <= i < |lotteries| && lotteries[i].numbers != []
      ensures NumberCount(lotteries) > 0
      ensures NumbersNamed(lotteries, lotteries[i].name) == lotteries[i].numbers
    {
      NumberCountPositive(lotteries);
      NumbersNamedDistinct(lotteries, i);
    }
  }

  /** With distinct lottery names, each lottery that has numbers comes back
      as a list of its own name holding exactly its numbers. */
  lemma ExportThenImportDistinct(lotteries: seq<LotteryNumbers>)
    requires PlainLotteries(lotteries) && DistinctNames(lotteries)
    ensures forall i :: 0 <= i < |lotteries| && lotteries[i].numbers != [] ==>
      && Import(CsvContent(lotteries)).Imported?
      && lotteries[i].name in Import(CsvContent(lotteries)).lists
      && Import(CsvContent(lotteries)).lists[lotteries[i].name] == lotteries[i].numbers
  {
    ExportThenImport(lotteries);
    DistinctListsOfOutcome(lotteries, Import(CsvContent(lotteries)));
  }

  /** The lotteries hold exactly the imported lists, one lottery per name. */
  ghost predicate StoresLists(lotteries: seq<LotteryNumbers>, lists: map<string, seq<string>>) {
    && DistinctNames(lotteries)
    && (forall i :: 0 <= i < |lotteries| ==>
          lotteries[i].name in lists && lotteries[i].numbers == lists[lotteries[i].name])
    && (forall name :: name in lists ==> exists i :: 0 <= i < |lotteries| && lotteries[i].name == name)
  }

  /** Lists whose names and numbers are plain fields, none of them empty:
      what an import produces. */
  ghost predicate PlainLists(lists: map<string, seq<string>>) {
    forall name :: name in lists ==>
      && IsPlainField(name)
      && lists[name] != []
      && forall v :: v in lists[name] ==> IsPlainField(v)
  }

  /** There is something to export exactly when at least one list is stored. */
  lemma StoredListsCount(lists: map<string, seq<string>>, lotteries: seq<LotteryNumbers>)
    requires PlainLists(lists) && StoresLists(lotteries, lists)
    ensures NumberCount(lotteries) > 0 <==> lists != map[]
  {
    NumberCountPositive(lotteries);
    if lists != map[] {
      var name :| name in lists;
      var i :| 0 <= i < |lotteries| && lotteries[i].name == name;
      assert lotteries[i].numbers != [];
    } else {
      forall i | 0 <= i < |lotteries|
        ensures lotteries[i].numbers == []
      {
        assert lotteries[i].name in lists;
      }
    }
  }

  /** A map with the names and lists of `GroupOfExport` is the stored map. */
  lemma StoredListsOfGroup(lists: map<string, seq<string>>, lotteries: seq<LotteryNumbers>, again: map<string, seq<string>>)
    requires PlainLists(lists) && StoresLists(lotteries, lists)
    requires forall name :: name in again <==>
      exists i :: 0 <= i < |lotteries| && lotteries[i].name == name && lotteries[i].numbers != []
    requires forall name :: name in again ==> again[name] == NumbersNamed(lotteries, name)
    ensures again == lists
  {
    StoredKeys(lists, lotteries, again);
    StoredValues(lists, lotteries, again);
  }

  lemma StoredKeys(lists: map<string, seq<string>>, lotteries: seq<LotteryNumbers>, again: map<string, seq<string>>)
    requires forall name :: name in lists ==> lists[name] != []
    requires StoresLists(lotteries, lists)
    requires forall name :: name in again <==>
      exists i :: 0 <= i < |lotteries| && lotteries[i].name == name && lotteries[i].numbers != []
    ensures again.Keys == lists.Keys
  {
    forall name | name in lists
      ensures name in again
    {
      var i :| 0 <= i < |lotteries| && lotteries[i].name == name;
      assert lotteries[i].numbers != [];
    }
    forall name | name in again
      ensures name in lists
    {
      var i :| 0 <= i < |lotteries| && lotteries[i].name == name && lotteries[i].numbers != [];
    }
  }

  lemma StoredValues(lists: map<string, seq<string>>, lotteries: seq<LotteryNumbers>, again: map<string, seq<string>>)
    requires StoresLists(lotteries, lists)
    requires again.Keys == lists.Keys
    requires forall name :: name in again ==> again[name] == NumbersNamed(lotteries, name)
    ensures forall name :: name in lists ==> again[name] == lists[name]
  {
    forall name | name in lists
      ensures again[name] == lists[name]
    {
      var i :| 0 <= i < |lotteries| && lotteries[i].name == name;
      NumbersNamedDistinct(lotteries, i);
    }
  }

  /** Grouping the export of lotteries that store some lists gives those
      lists back. */
  lemma GroupOfStoredLists(lists: map<string, seq<string>>, lotteries: seq<LotteryNumbers>)
    requires PlainLists(lists) && StoresLists(lotteries, lists)
    ensures Group(ExportRecords(lotteries)) == lists
  {
    GroupOfExport(lotteries);
    StoredListsOfGroup(lists, lotteries, Group(ExportRecords(lotteries)));
  }

  lemma StoredListsArePlain(lists: map<string, seq<string>>, lotteries: seq<LotteryNumbers>)
    requires PlainLists(lists) && StoresLists(lotteries, lists)
    ensures PlainLotteries(lotteries)
  {
    forall l | l in lotteries
      ensures IsPlainField(l.name) && forall v :: v in l.numbers ==> IsPlainField(v)
    {
      var i :| 0 <= i < |lotteries| && lotteries[i] == l;
    }
  }

  /** Re-importing is stable: once an import has been stored as one lottery
      per list, exporting those lotteries and importing the text gives the
      same lists again. An import that produced no list leaves nothing to
      export, and the second import reports an empty file. */
  lemma ReimportIsStable(text: string, lotteries: seq<LotteryNumbers>)
    ensures Import(text).Imported? && StoresLists(lotteries, Import(text).lists) ==>
      if Import(text).lists == map[] then Import(CsvContent(lotteries)) == EmptyFile
      else Import(CsvContent(lotteries)) == Import(text)
  {
    if Import(text).Imported? && StoresLists(lotteries, Import(text).lists) {
      var lists := Import(text).lists;
      ImportedListsArePlain(text);
      StoredListsArePlain(lists, lotteries);
      StoredListsCount(lists, lotteries);
      GroupOfStoredLists(lists, lotteries);
      ImportOfExport(lotteries);
    }
  }

  /** There is something to export exactly when some lottery has a number. */
  lemma {:induction false} NumberCountPositive(lotteries: seq<LotteryNumbers>)
    ensures NumberCount(lotteries) > 0 <==> exists i :: 0 <= i < |lotteries| && lotteries[i].numbers != []
    decreases |lotteries|
  {
    if lotteries != [] {
      var n := |lotteries| - 1;
      NumberCountPositive(lotteries[..n]);
      if exists i :: 0 <= i < n && lotteries[..n][i].numbers != [] {
        var i :| 0 <= i < n && lotteries[..n][i].numbers != [];
        assert lotteries[i] == lotteries[..n][i];
      }
      if exists i :: 0 <= i < |lotteries| && lotteries[i].numbers != [] {
        var i :| 0 <= i < |lotteries| && lotteries[i].numbers != [];
        if i < n {
          assert lotteries[..n][i] == lotteries[i];
        }
      }
    }
  }
}

=== FILE: js_text.dfy ===
/** The JavaScript string primitives the core relies on, over `seq<char>`:
    `trim`, `split` on one character, `endsWith`, `includes`,
    `toLowerCase` (ASCII letters only), `parseInt` without a radix
    (decimal only) and the decimal rendering of an integer that a template
    literal `${n}` produces. Lengths count characters. */
module JsText {
  import opened Wrappers

  // ---------------------------------------------------------------- trim

  /** The WhiteSpace and LineTerminator code points of ECMAScript, which
      `trim` strips and `parseInt` skips. */
  predicate IsSpace(c: char) {
    || c == ' ' || c == '\t' || c == '\n' || c == '\r'
    || c == '\U{000B}' || c == '\U{000C}' || c == '\U{00A0}' || c == '\U{1680}'
    || ('\U{2000}' <= c <= '\U{200A}')
    || c == '\U{2028}' || c == '\U{2029}' || c == '\U{202F}' || c == '\U{205F}'
    || c == '\U{3000}' || c == '\U{FEFF}'
  }

  /** Neither end of `s` is a space: `s` is its own `trim()`. */
  predicate IsTrimmed(s: string) {
    s == [] || (!IsSpace(s[0]) && !IsSpace(s[|s| - 1]))
  }

  /** `trimStart`: drops the leading spaces. */
  function TrimStart(s: string): (r: string)
    ensures |r| <= |s| && r == s[|s| - |r|..]
    ensures r == [] || !IsSpace(r[0])
    ensures forall i :: 0 <= i < |s| - |r| ==> IsSpace(s[i])
  {
    if s != [] && IsSpace(s[0]) then TrimStart(s[1..]) else s
  }

  /** `trimEnd`: drops the trailing spaces. */
  function TrimEnd(s: string): (r: string)
    ensures |r| <= |s| && r == s[..|r|]
    ensures r == [] || !IsSpace(r[|r| - 1])
    ensures forall i :: |r| <= i < |s| ==> IsSpace(s[i])
  {
    if s != [] && IsSpace(s[|s| - 1]) then TrimEnd(s[..|s| - 1]) else s
  }

  /** `trim`: drops the spaces at both ends. The result is empty exactly when
      `s` is all spaces, has no space at either end, uses only characters of
      `s`, and leaves an already trimmed string alone. */
  function Trim(s: string): (r: string)
    ensures IsTrimmed(r)
    ensures forall c :: c in r ==> c in s
    ensures r == [] <==> forall i :: 0 <= i < |s| ==> IsSpace(s[i])
    ensures IsTrimmed(s) ==> r == s
  {
    var front := TrimStart(s);
    var r := TrimEnd(front);
    assert forall c :: c in r ==> c in front;
    assert forall c :: c in front ==> c in s;
    r
  }

  /** `r` is the slice `s[a..b]`, and only spaces lie outside it. */
  predicate CutsSpaces(s: string, r: string, a: int, b: int) {
    && 0 <= a <= b <= |s| && r == s[a..b]
    && (forall i :: 0 <= i < a ==> IsSpace(s[i]))
    && (forall i :: b <= i < |s| ==> IsSpace(s[i]))
  }

  /** `trim` cuts out the middle of `s`: what it drops at either end is
      spaces only, and what it keeps is a contiguous slice of `s`. */
  lemma TrimIsSlice(s: string)
    ensures exists a, b :: CutsSpaces(s, Trim(s), a, b)
  {
    var front := TrimStart(s);
    var r := TrimEnd(front);
    var a := |s| - |front|;
    TrimCuts(s, front, r, a);
    assert Trim(s) == r;
  }

  lemma TrimCuts(s: string, front: string, r: string, a: nat)
    requires a <= |s| && front == s[a..]
    requires |r| <= |front| && r == front[..|r|]
    requires forall i :: 0 <= i < a ==> IsSpace(s[i])
    requires forall i :: |r| <= i < |front| ==> IsSpace(front[i])
    ensures CutsSpaces(s, r, a, a + |r|)
  {
    SpacesAfterSlice(s, a, |r|);
    assert r == s[a..a + |r|];
  }

  lemma SpacesAfterSlice(s: string, a: nat, n: nat)
    requires a + n <= |s|
    requires forall i :: n <= i < |s[a..]| ==> IsSpace(s[a..][i])
    ensures forall i :: a + n <= i < |s| ==> IsSpace(s[i])
  {
    forall i | a + n <= i < |s|
      ensures IsSpace(s[i])
    {
      assert s[i] == s[a..][i - a];
    }
  }

  // ------------------------------------------------------ endsWith, includes

  /** `s.endsWith(q)`. Every string ends with `""`. */
  predicate EndsWith(s: string, q: string) {
    |q| <= |s| && s[|s| - |q|..] == q
  }

  /** `s.includes(q)`: `q` occurs in `s` as a contiguous substring. */
  predicate Contains(s: string, q: string) {
    exists i :: 0 <= i <= |s| - |q| && q <= s[i..]
  }

  // ------------------------------------------------------------ toLowerCase

  function LowerChar(c: char): char {
    if 'A' <= c <= 'Z' then (c as int + 32) as char else c
  }

  /** `toLowerCase` restricted to ASCII letters. */
  function ToLower(s: string): (r: string)
    ensures |r| == |s|
  {
    seq(|s|, i requires 0 <= i < |s| => LowerChar(s[i]))
  }

  // ------------------------------------------------------------------ split

  /** `s.split(sep)` for a one-character separator: the pieces between
      separators, always at least one (`"".split(",")` is `[""]`). */
  function Split(s: string, sep: char): (r: seq<string>)
    ensures |r| >= 1
    ensures forall i :: 0 <= i < |r| ==> sep !in r[i]
    ensures forall i, c :: 0 <= i < |r| && c in r[i] ==> c in s
  {
    if s == [] then [""]
    else
      var rest := Split(s[1..], sep);
      assert forall c :: c in s[1..] ==> c in s;
      if s[0] == sep then [""] + rest
      else [[s[0]] + rest[0]] + rest[1..]
  }

  /** `parts.join(sep)`, the inverse of `Split`. */
  function Join(parts: seq<string>, sep: char): string {
    if parts == [] then ""
    else if |parts| == 1 then parts[0]
    else parts[0] + [sep] + Join(parts[1..], sep)
  }

  /** Splitting loses nothing: joining the pieces back gives the input. */
  lemma {:induction false} JoinSplit(s: string, sep: char)
    ensures Join(Split(s, sep), sep) == s
  {
    if s != [] {
      var rest := Split(s[1..], sep);
      JoinSplit(s[1..], sep);
      if s[0] != sep {
        var parts := Split(s, sep);
        if |rest| == 1 {
          assert parts == [[s[0]] + rest[0]];
        } else {
          assert parts[1..] == rest[1..];
          assert Join(rest, sep) == rest[0] + [sep] + Join(rest[1..], sep);
        }
      }
    }
  }

  /** Without a separator there is a single piece. */
  lemma {:induction false} SplitWithoutSeparator(s: string, sep: char)
    requires sep !in s
    ensures Split(s, sep) == [s]
  {
    if s != [] {
      SplitWithoutSeparator(s[1..], sep);
      assert [s[0]] + s[1..] == s;
    }
  }

  /** The first separator ends the first piece. */
  lemma {:induction false} SplitAtFirstSeparator(a: string, sep: char, b: string)
    requires sep !in a
    ensures Split(a + [sep] + b, sep) == [a] + Split(b, sep)
  {
    if a != [] {
      assert (a + [sep] + b)[1..] == a[1..] + [sep] + b;
      SplitAtFirstSeparator(a[1..], sep, b);
      assert [a[0]] + a[1..] == a;
    } else {
      assert a + [sep] + b == [sep] + b;
    }
  }

  // --------------------------------------------------------------- parseInt

  predicate IsDigit(c: char) {
    '0' <= c <= '9'
  }

  predicate AllDigits(s: string) {
    forall i :: 0 <= i < |s| ==> IsDigit(s[i])
  }

  function DigitValue(c: char): nat
    requires IsDigit(c)
  {
    c as int - '0' as int
  }

  /** Length of the longest prefix of decimal digits. */
  function LeadingDigits(s: string): (n: nat)
    ensures n <= |s| && AllDigits(s[..n])
    ensures n == |s| || !IsDigit(s[n])
  {
    if s != [] && IsDigit(s[0]) then
      assert forall i :: 0 < i <= |s| ==> s[..i] == [s[0]] + s[1..][..i - 1];
      1 + LeadingDigits(s[1..])
    else 0
  }

  /** The value of a decimal digit string, most significant digit first. */
  function DigitsValue(ds: string): nat
    requires AllDigits(ds)
  {
    if ds == [] then 0
    else 10 * DigitsValue(ds[..|ds| - 1]) + DigitValue(ds[|ds| - 1])
  }

  /** The part of `t` after an optional leading sign. */
  function Unsigned(t: string): string {
    if t != [] && (t[0] == '-' || t[0] == '+') then t[1..] else t
  }

  /** `parseInt(s)` without a radix: skip leading spaces, take an optional
      sign, then the longest run of decimal digits; `None` (NaN) when that
      run is empty. So a number is read exactly when the first character
      after the leading spaces, or after a sign there, is a digit, and a
      string without any digit never parses. */
  function ParseInt(s: string): (r: Option<int>)
    ensures (forall i :: 0 <= i < |s| ==> !IsDigit(s[i])) ==> r == None
  {
    ParseSigned(TrimStart(s))
  }

  /** `parseInt` once the leading spaces are gone. */
  function ParseSigned(t: string): (r: Option<int>)
    ensures (forall i :: 0 <= i < |t| ==> !IsDigit(t[i])) ==> r == None
  {
    var body := Unsigned(t);
    var n := LeadingDigits(body);
    if n == 0 then None
    else
      var magnitude: int := DigitsValue(body[..n]);
      Some(if t[0] == '-' then -magnitude else magnitude)
  }

  // ------------------------------------------------ integer to decimal text

  function DigitChar(d: nat): (c: char)
    requires d < 10
    ensures IsDigit(c) && DigitValue(c) == d
  {
    ('0' as int + d) as char
  }

  /** Decimal digits of `n`, most significant first, without leading zeros. */
  function NatToString(n: nat): (r: string)
    ensures r != [] && AllDigits(r)
    ensures DigitsValue(r) == n
    ensures r[0] == '0' <==> n == 0
    ensures n < 10 <==> |r| == 1
  {
    if n < 10 then [DigitChar(n)]
    else
      var r := NatToString(n / 10) + [DigitChar(n % 10)];
      assert r[..|r| - 1] == NatToString(n / 10);
      r
  }

  /** What `${n}` prints for an integer-valued number: a minus sign exactly
      for a negative number, then the decimal digits of its magnitude
      without leading zeros. */
  function IntToString(n: int): (r: string)
    ensures r != [] && (IsDigit(r[0]) || r[0] == '-')
    ensures r[0] == '-' <==> n < 0
    ensures var ds := Unsigned(r);
      && ds != [] && AllDigits(ds)
      && DigitsValue(ds) == (if n < 0 then -n else n)
      && (ds[0] == '0' ==> ds == "0")
  {
    if n < 0 then "-" + NatToString(-n) else NatToString(n)
  }

  lemma {:induction false} LeadingDigitsOfDigitsThen(ds: string, rest: string)
    requires AllDigits(ds)
    requires rest == [] || !IsDigit(rest[0])
    ensures LeadingDigits(ds + rest) == |ds|
  {
    if ds != [] {
      assert (ds + rest)[1..] == ds[1..] + rest;
      LeadingDigitsOfDigitsThen(ds[1..], rest);
    }
  }

  /** A number is read exactly when the first character after the leading
      spaces, or after a sign there, is a digit. */
  lemma ParseIntDefined(s: string)
    ensures ParseInt(s).Some? <==>
      || (TrimStart(s) != [] && IsDigit(TrimStart(s)[0]))
      || (|TrimStart(s)| >= 2 && (TrimStart(s)[0] == '-' || TrimStart(s)[0] == '+') && IsDigit(TrimStart(s)[1]))
  {
    ParseSignedDefined(TrimStart(s));
  }

  lemma ParseSignedDefined(t: string)
    ensures ParseSigned(t).Some? <==>
      || (t != [] && IsDigit(t[0]))
      || (|t| >= 2 && (t[0] == '-' || t[0] == '+') && IsDigit(t[1]))
  {
    var body := Unsigned(t);
    assert ParseSigned(t).Some? <==> LeadingDigits(body) > 0;
    assert LeadingDigits(body) > 0 <==> body != [] && IsDigit(body[0]);
  }

  /** Leading spaces, an optional sign and a digit run (then a non-digit)
      are read as that signed number; leading zeros do not matter. */
  lemma ParseIntOfSignedDigits(s: string, spaces: string, sign: string, digits: string, rest: string)
    requires forall i :: 0 <= i < |spaces| ==> IsSpace(spaces[i])
    requires sign == "" || sign == "-" || sign == "+"
    requires digits != [] && AllDigits(digits)
    requires rest == [] || !IsDigit(rest[0])
    requires s == spaces + sign + digits + rest
    ensures ParseInt(s) == Some(if sign == "-" then 0 - DigitsValue(digits) else DigitsValue(digits))
  {
    SignedDigitsAfterSpaces(s, spaces, sign, digits, rest);
    SignedDigitsValue(sign, digits, rest);
  }

  lemma SignedDigitsAfterSpaces(s: string, spaces: string, sign: string, digits: string, rest: string)
    requires forall i :: 0 <= i < |spaces| ==> IsSpace(spaces[i])
    requires sign == "" || sign == "-" || sign == "+"
    requires digits != [] && AllDigits(digits)
    requires s == spaces + sign + digits + rest
    ensures TrimStart(s) == sign + digits + rest
  {
    var t := sign + digits + rest;
    SignedBody(sign, digits, rest);
    assert s == spaces + t;
    TrimStartSkipsSpaces(spaces, t);
  }

  lemma SignedDigitsValue(sign: string, digits: string, rest: string)
    requires sign == "" || sign == "-" || sign == "+"
    requires digits != [] && AllDigits(digits)
    requires rest == [] || !IsDigit(rest[0])
    ensures ParseSigned(sign + digits + rest)
      == Some(if sign == "-" then 0 - DigitsValue(digits) else DigitsValue(digits))
  {
    var t := sign + digits + rest;
    SignedBody(sign, digits, rest);
    LeadingDigitsOfDigitsThen(digits, rest);
    ParseSignedOfUnsigned(t, digits, rest, sign == "-");
  }

  lemma SignedBody(sign: string, digits: string, rest: string)
    requires sign == "" || sign == "-" || sign == "+"
    requires digits != [] && AllDigits(digits)
    ensures var t := sign + digits + rest;
      Unsigned(t) == digits + rest && (t[0] == '-' <==> sign == "-") && !IsSpace(t[0])
  {
    var t := sign + digits + rest;
    if sign == "" {
      assert t == digits + rest;
      assert IsDigit(t[0]);
    } else {
      assert t[0] == sign[0] && t[1..] == digits + rest;
    }
  }

  lemma ParseSignedOfUnsigned(t: string, digits: string, rest: string, negative: bool)
    requires Unsigned(t) == digits + rest && t != [] && (t[0] == '-' <==> negative)
    requires digits != [] && AllDigits(digits) && LeadingDigits(digits + rest) == |digits|
    ensures ParseSigned(t) == Some(if negative then 0 - DigitsValue(digits) else DigitsValue(digits))
  {
    var body := Unsigned(t);
    assert body[..LeadingDigits(body)] == digits by {
      assert (digits + rest)[..|digits|] == digits;
    }
  }

  /** Leading spaces are skipped up to the first other character. */
  lemma {:induction false} TrimStartSkipsSpaces(spaces: string, t: string)
    requires forall i :: 0 <= i < |spaces| ==> IsSpace(spaces[i])
    requires t == [] || !IsSpace(t[0])
    ensures TrimStart(spaces + t) == t
  {
    if spaces != [] {
      assert (spaces + t)[1..] == spaces[1..] + t;
      TrimStartSkipsSpaces(spaces[1..], t);
    } else {
      assert spaces + t == t;
    }
  }

  /** A letter before the digits gives `NaN`. */
  lemma ParseIntLetterFirst()
    ensures ParseInt("a5") == None
  {
    TrimStartSkipsSpaces("", "a5");
    assert "" + "a5" == "a5";
    ParseIntDefined("a5");
  }

  /** Leading spaces, a plus sign and leading zeros are accepted, and the
      trailing text is ignored. */
  lemma ParseIntSpacesSignZeros()
    ensures ParseInt(" +07x") == Some(7)
  {
    assert DigitsValue("07") == 7 by {
      assert "07"[..1] == "0";
      assert "0"[..0] == [];
    }
    assert " +07x" == " " + "+" + "07" + "x" by {
    }
    assert forall i :: 0 <= i < |" "| ==> IsSpace(" "[i]) by {
    }
    assert AllDigits("07") && !IsDigit("x"[0]) by {
    }
    ParseIntOfSignedDigits(" +07x", " ", "+", "07", "x");
  }

  /** `parseInt` reads back what `${n}` printed, even when other text
      follows that does not start with a digit. */
  lemma ParseIntOfIntToString(n: int, rest: string)
    requires rest == [] || !IsDigit(rest[0])
    ensures ParseInt(IntToString(n) + rest) == Some(n)
  {
    var digits := NatToString(if n < 0 then -n else n);
    var sign := if n < 0 then "-" else "";
    IntToStringParts(n, sign, digits, rest);
    ParseIntOfSignedDigits(IntToString(n) + rest, "", sign, digits, rest);
  }

  lemma IntToStringParts(n: int, sign: string, digits: string, rest: string)
    requires sign == if n < 0 then "-" else ""
    requires digits == NatToString(if n < 0 then -n else n)
    ensures IntToString(n) + rest == "" + sign + digits + rest
  {
    assert "" + sign == sign;
    assert IntToString(n) == sign + digits;
  }
}

=== FILE: lottery_card.dfy ===
/** The helpers of a lottery's dashboard card: the `min - max` range of its
    numeric numbers and the label and badge colour of its status. */
module LotteryCard {
  import opened Wrappers
  import opened JsText
  import opened Seqs
  import StableSort

  // ------------------------------------------------------------ number range

  /** `numbers.map(n => parseInt(n.number))` */
  function ParseAll(numbers: seq<string>): (r: seq<Option<int>>)
    ensures |r| == |numbers|
  {
    seq(|numbers|, i requires 0 <= i < |numbers| => ParseInt(numbers[i]))
  }

  /** `.filter(n => !isNaN(n))` after the parse: the values that parse, in
      list order. */
  function ParsedNumbers(numbers: seq<string>): seq<int> {
    Present(ParseAll(numbers))
  }

  /** A value is kept exactly when some number parses to it; numbers that
      are not numeric are dropped. */
  lemma ParsedNumbersAreParses(numbers: seq<string>)
    ensures forall x :: x in ParsedNumbers(numbers) <==>
      exists i :: 0 <= i < |numbers| && ParseInt(numbers[i]) == Some(x)
  {
    var xs := ParseAll(numbers);
    PresentValues(xs);
    forall x
      ensures Some(x) in xs <==> exists i :: 0 <= i < |numbers| && ParseInt(numbers[i]) == Some(x)
    {
      if Some(x) in xs {
        var i :| 0 <= i < |xs| && xs[i] == Some(x);
        assert ParseInt(numbers[i]) == Some(x);
      }
      if exists i :: 0 <= i < |numbers| && ParseInt(numbers[i]) == Some(x) {
        var i :| 0 <= i < |numbers| && ParseInt(numbers[i]) == Some(x);
        assert xs[i] == Some(x);
      }
    }
  }

  /** Numbers written in canonical decimal form all parse, to themselves. */
  lemma ParsedNumbersOfDecimals(values: seq<int>)
    ensures ParsedNumbers(seq(|values|, i requires 0 <= i < |values| => IntToString(values[i]))) == values
  {
    var texts := seq(|values|, i requires 0 <= i < |values| => IntToString(values[i]));
    forall i | 0 <= i < |values|
      ensures ParseAll(texts)[i] == Some(values[i])
    {
      ParseIntOfIntToString(values[i], "");
      assert IntToString(values[i]) + "" == texts[i];
    }
    assert ParseAll(texts) == seq(|values|, i requires 0 <= i < |values| => Some(values[i]));
    PresentOfAllSome(values);
  }

  /** The comparator `(a, b) => a - b`: every value is its own key. */
  function NumericKey(): int -> Option<int> {
    x => Some(x)
  }

  /** The smallest and the largest parsed value. */
  datatype NumberRange = NumberRange(low: int, high: int)

  /** `sort((a, b) => a - b)`, then the first and the last element; nothing
      for an empty list. */
  function RangeOf(values: seq<int>): (r: Option<NumberRange>)
    ensures r.Some? <==> values != []
  {
    var sorted := StableSort.Sort(NumericKey(), values);
    if |sorted| > 0 then Some(NumberRange(sorted[0], sorted[|sorted| - 1])) else None
  }

  /** The range of a list is its minimum and maximum: both ends belong to
      the list and every element lies between them. */
  lemma RangeOfIsMinMax(values: seq<int>)
    requires values != []
    ensures var range := RangeOf(values).value;
      && range.low in values
      && range.high in values
      && range.low <= range.high
      && forall x :: x in values ==> range.low <= x <= range.high
  {
    var sorted := StableSort.Sort(NumericKey(), values);
    StableSort.SortSameElements(NumericKey(), values);
    StableSort.SortIsSorted(NumericKey(), values);
    var last := |sorted| - 1;
    assert sorted[0] in sorted && sorted[last] in sorted;
    forall x | x in values
      ensures sorted[0] <= x <= sorted[last]
    {
      var i :| 0 <= i < |sorted| && sorted[i] == x;
      assert NumericKey()(sorted[0]) == Some(sorted[0]);
      assert NumericKey()(sorted[i]) == Some(x);
      assert NumericKey()(sorted[last]) == Some(sorted[last]);
      if 0 < i {
        assert NumericKey()(sorted[0]).value <= NumericKey()(sorted[i]).value;
      }
      if i < last {
        assert NumericKey()(sorted[i]).value <= NumericKey()(sorted[last]).value;
      }
    }
  }

  /** `fetchNumberRange`: nothing unless a user is signed in and the lottery
      has a positive `numberCount`; nothing when the store returns no
      numbers or none of them parses; otherwise the range of the values
      that parse. */
  function FetchNumberRange(signedIn: bool, numberCount: Option<int>, numbers: seq<string>): (r: Option<NumberRange>)
    ensures r.Some? <==>
      signedIn && numberCount.Some? && numberCount.value > 0 && ParsedNumbers(numbers) != []
  {
    if signedIn && numberCount.Some? && numberCount.value > 0 && |numbers| > 0 then
      RangeOf(ParsedNumbers(numbers))
    else None
  }

  /** A produced range is the minimum and maximum of the parsed values:
      both are among them, `min <= max`, and every parsed value lies
      between them. */
  lemma RangeIsMinMax(signedIn: bool, numberCount: Option<int>, numbers: seq<string>)
    requires FetchNumberRange(signedIn, numberCount, numbers).Some?
    ensures var range := FetchNumberRange(signedIn, numberCount, numbers).value;
      && range.low in ParsedNumbers(numbers)
      && range.high in ParsedNumbers(numbers)
      && range.low <= range.high
      && forall x :: x in ParsedNumbers(numbers) ==> range.low <= x <= range.high
  {
    RangeOfIsMinMax(ParsedNumbers(numbers));
  }

  /** No range is produced exactly when no user is signed in, the count is
      missing or not positive, or no number parses (an empty list included). */
  lemma RangeAbsent(signedIn: bool, numberCount: Option<int>, numbers: seq<string>)
    ensures FetchNumberRange(signedIn, numberCount, numbers).None? <==>
      || !signedIn
      || numberCount.None?
      || numberCount.value <= 0
      || forall i :: 0 <= i < |numbers| ==> ParseInt(numbers[i]).None?
  {
    PresentEmpty(ParseAll(numbers));
    assert forall i :: 0 <= i < |numbers| ==> ParseAll(numbers)[i] == ParseInt(numbers[i]);
  }

  /** `${min} - ${max}` */
  function RangeText(range: NumberRange): (t: string)
    ensures ParseInt(t) == Some(range.low)
  {
    ParseIntOfIntToString(range.low, " - " + IntToString(range.high));
    IntToString(range.low) + (" - " + IntToString(range.high))
  }

  /** Both ends can be read back from the text: the low end at its start,
      the high end after the ` - ` separator. */
  lemma RangeTextReadsBack(range: NumberRange)
    ensures ParseInt(RangeText(range)) == Some(range.low)
    ensures ParseInt(RangeText(range)[|IntToString(range.low)| + 3..]) == Some(range.high)
  {
    HighAfterSeparator(IntToString(range.low), range.high);
  }

  lemma HighAfterSeparator(low: string, n: int)
    ensures ParseInt((low + (" - " + IntToString(n)))[|low| + 3..]) == Some(n)
  {
    var high := IntToString(n);
    assert (low + (" - " + high))[|low| + 3..] == high + "";
    ParseIntOfIntToString(n, "");
  }

  /** The displayed range after a fetch. The state starts as `''` and is only
      set when a range is produced, so a fetch without a range keeps the
      text that was shown before. */
  function RangeAfterFetch(shown: string, signedIn: bool, numberCount: Option<int>, numbers: seq<string>): (t: string)
    ensures FetchNumberRange(signedIn, numberCount, numbers).None? ==> t == shown
    ensures FetchNumberRange(signedIn, numberCount, numbers).Some? ==>
      ParseInt(t) == Some(FetchNumberRange(signedIn, numberCount, numbers).value.low)
  {
    match FetchNumberRange(signedIn, numberCount, numbers)
    case Some(range) => RangeText(range)
    case None => shown
  }

  // ------------------------------------------------------------------ status

  /** The statuses the card knows; the comparison is exact. */
  predicate IsKnownStatus(status: string) {
    status == "active" || status == "completed" || status == "cancelled"
  }

  /** `getStatusText`: the Spanish label, `Desconocido` for anything else. */
  function StatusText(status: string): (text: string)
    ensures text == "Desconocido" <==> !IsKnownStatus(status)
  {
    match status
    case "active" => "Activa"
    case "completed" => "Completada"
    case "cancelled" => "Cancelada"
    case _ => "Desconocido"
  }

  /** `getStatusColor`: the badge classes, gray for anything else. */
  function StatusColor(status: string): (classes: string)
    ensures classes == "bg-gray-100 text-gray-800" <==> !IsKnownStatus(status)
  {
    match status
    case "active" => "bg-green-100 text-green-800"
    case "completed" => "bg-blue-100 text-blue-800"
    case "cancelled" => "bg-red-100 text-red-800"
    case _ => "bg-gray-100 text-gray-800"
  }

  /** Label and colour tell statuses apart in the same way: two statuses get
      the same colour exactly when they get the same label, and the three
      known statuses each get their own. */
  lemma StatusTextAndColorAgree(a: string, b: string)
    ensures StatusColor(a) == StatusColor(b) <==> StatusText(a) == StatusText(b)
    ensures IsKnownStatus(a) && StatusText(a) == StatusText(b) ==> a == b
  {
  }
}

=== FILE: number_search.dfy ===
/** Searching the numbers of one lottery (`NumberManagement`): the direct
    filter over the search term, and the suggestion engine that proposes up
    to five similar terminations when the direct filter finds nothing. */
module NumberSearch {
  import opened Wrappers
  import opened JsText
  import opened Seqs
  import StableSort

  /** A stored lottery number. Only `number` and the optional `name` take
      part in searching. */
  datatype Entry = Entry(number: string, name: Option<string>, isWinner: bool)

  /** How many suggestions are shown at most. */
  const MaxSuggestions: nat := 5

  // ---------------------------------------------------------- direct filter

  /** The direct search test: the number ends with the term, or the name
      contains it ignoring case. An entry without a name can only match
      through its number. */
  predicate Matches(q: string, e: Entry) {
    || EndsWith(e.number, q)
    || (e.name.Some? && Contains(ToLower(e.name.value), ToLower(q)))
  }

  function MatchesTerm(q: string): Entry -> bool {
    e => Matches(q, e)
  }

  /** `filteredNumbers`: the entries passing the direct search test. The
      result holds exactly the matching entries, each as often as in the
      input; a nameless entry in it ends with the term. */
  function DirectFilter(numbers: seq<Entry>, q: string): (r: seq<Entry>)
    ensures forall e :: e in r <==> e in numbers && Matches(q, e)
    ensures forall e :: multiset(r)[e] == if Matches(q, e) then multiset(numbers)[e] else 0
    ensures forall e :: e in r && e.name.None? ==> EndsWith(e.number, q)
  {
    Filter(MatchesTerm(q), numbers)
  }

  /** The filter keeps the entries in the order the store returned them. */
  lemma DirectFilterKeepsOrder(numbers: seq<Entry>, q: string)
    ensures IsSubsequence(DirectFilter(numbers, q), numbers)
  {
    FilterIsSubsequence(MatchesTerm(q), numbers);
  }

  /** Every number ends with the empty string, so an empty search term
      shows every entry unchanged. */
  lemma EmptyTermShowsAll(numbers: seq<Entry>)
    ensures DirectFilter(numbers, "") == numbers
  {
    FilterKeepsAll(MatchesTerm(""), numbers);
  }

  // --------------------------------------------------------- candidate pool

  /** `numStr.slice(-i)` for i = 1 .. n: the terminations of `s` of
      length at most `n`, shortest first. */
  function ShortEndings(s: string, n: nat): (r: seq<string>)
    requires n <= |s|
    ensures |r| == n
  {
    if n == 0 then [] else ShortEndings(s, n - 1) + [s[|s| - n..]]
  }

  /** All non-empty terminations of a number string, shortest first. */
  function Endings(s: string): seq<string> {
    ShortEndings(s, |s|)
  }

  lemma {:induction false} ShortEndingsAreSuffixes(s: string, n: nat, e: string)
    requires n <= |s|
    ensures e in ShortEndings(s, n) <==> 0 < |e| <= n && EndsWith(s, e)
  {
    if n > 0 {
      ShortEndingsAreSuffixes(s, n - 1, e);
    }
  }

  /** The terminations are exactly the non-empty strings `s` ends with. */
  lemma EndingsAreSuffixes(s: string, e: string)
    ensures e in Endings(s) <==> e != "" && EndsWith(s, e)
  {
    ShortEndingsAreSuffixes(s, |s|, e);
  }

  /** The terminations of every entry, entry by entry in store order. */
  function AllEndings(numbers: seq<Entry>): seq<string> {
    if numbers == [] then []
    else AllEndings(numbers[..|numbers| - 1]) + Endings(numbers[|numbers| - 1].number)
  }

  /** The pool of terminations is exactly the non-empty suffixes of the
      entries' numbers. */
  lemma {:induction false} AllEndingsAreSuffixes(numbers: seq<Entry>, e: string)
    ensures e in AllEndings(numbers) <==> e != "" && exists n :: n in numbers && EndsWith(n.number, e)
    decreases |numbers|
  {
    if numbers != [] {
      var prefix := numbers[..|numbers| - 1];
      var last := numbers[|numbers| - 1];
      AllEndingsAreSuffixes(prefix, e);
      EndingsAreSuffixes(last.number, e);
      assert numbers == prefix + [last];
      if e in AllEndings(numbers) && e !in Endings(last.number) {
        var n :| n in prefix && EndsWith(n.number, e);
        assert n in numbers;
      }
    }
  }

  /** `Math.abs(endingNum - searchNum) <= 2`: false as soon as either side
      is `NaN`. */
  predicate IsClose(e: string, q: string) {
    && ParseInt(e).Some? && ParseInt(q).Some?
    && -2 <= ParseInt(e).value - ParseInt(q).value <= 2
  }

  /** Admission of one termination: not the term itself, and either it
      contains the term or it has the term's length and is numerically
      within 2 of it. */
  predicate Admitted(q: string, e: string) {
    e != q && (Contains(e, q) || (|e| == |q| && IsClose(e, q)))
  }

  /** What admission means: the term itself is never suggested, any other
      termination containing it always is, and one that does not contain
      it gets in only with the term's length and a value within 2. */
  lemma AdmissionCases(q: string, e: string)
    ensures !Admitted(q, q)
    ensures e != q && Contains(e, q) ==> Admitted(q, e)
    ensures Admitted(q, e) && !Contains(e, q) ==> |e| == |q| && IsClose(e, q)
    ensures Admitted(q, e) ==> |q| <= |e|
  {
    if Admitted(q, e) && Contains(e, q) {
      var i :| 0 <= i <= |e| - |q| && q <= e[i..];
    }
  }

  /** For the term "12", a termination containing it is admitted. */
  lemma AdmissionContaining()
    ensures Admitted("12", "912")
  {
    assert "12" <= "912"[1..];
  }

  function AdmittedFor(q: string): string -> bool {
    e => Admitted(q, e)
  }

  /** `Array.from(uniqueEndings)`: the admitted terminations, each once, in
      the order they were first added to the `Set`. */
  function Candidates(q: string, numbers: seq<Entry>): seq<string> {
    Dedup(Filter(AdmittedFor(q), AllEndings(numbers)))
  }

  // ------------------------------------------------------------- ranking

  function Abs(x: int): nat {
    if x < 0 then -x else x
  }

  /** The composite score `distance + lengthDiff * 2 + contains * 5` of the
      sort comparator; `None` (NaN) when the termination or the term does
      not parse. */
  function Score(q: string, e: string): (r: Option<int>)
    ensures r.Some? <==> ParseInt(e).Some? && ParseInt(q).Some?
    ensures r.Some? ==> r.value >= 0
    ensures r.Some? && !Contains(e, q) ==> r.value >= 5
    ensures r.Some? ==>
      (r.value == 0 <==> ParseInt(e) == ParseInt(q) && |e| == |q| && Contains(e, q))
  {
    var pe, pq := ParseInt(e), ParseInt(q);
    if pe.Some? && pq.Some? then
      Some(Penalty(pe.value, pq.value, |e|, |q|, Contains(e, q)))
    else None
  }

  /** `distance + lengthDiff * 2 + contains * 5` on the parsed values, the
      two lengths and the outcome of `includes`. */
  function Penalty(a: int, b: int, la: nat, lb: nat, contains: bool): (p: nat)
    ensures !contains ==> p >= 5
    ensures p == 0 <==> a == b && la == lb && contains
  {
    Abs(a - b) + 2 * Abs(la - lb) + (if contains then 0 else 5)
  }

  function ScoreFor(q: string): string -> Option<int> {
    e => Score(q, e)
  }

  /** The candidates after `sort((a, b) => aScore - bScore)`. */
  function Ranked(q: string, numbers: seq<Entry>): seq<string> {
    StableSort.Sort(ScoreFor(q), Candidates(q, numbers))
  }

  /** `getSimilarEndings`: nothing for a blank term, otherwise the five best
      ranked candidates. */
  function SimilarEndings(q: string, numbers: seq<Entry>): (r: seq<string>)
    ensures |r| <= MaxSuggestions
    ensures Trim(q) == "" ==> r == []
  {
    if Trim(q) == "" then [] else Take(Ranked(q, numbers), MaxSuggestions)
  }

  /** `similarEndings`: suggestions are computed only for a non-blank term
      that the direct filter does not match at all. */
  function Suggestions(q: string, numbers: seq<Entry>): (r: seq<string>)
    ensures r != [] ==> Trim(q) != "" && DirectFilter(numbers, q) == []
  {
    if Trim(q) != "" && DirectFilter(numbers, q) == [] then SimilarEndings(q, numbers) else []
  }

  // ------------------------------------------------------------ properties

  /** The suggestions are the leading part of the ranked candidates, which
      are the candidates reordered. */
  lemma RankedIsPermutation(q: string, numbers: seq<Entry>)
    ensures multiset(Ranked(q, numbers)) == multiset(Candidates(q, numbers))
    ensures forall e :: e in Ranked(q, numbers) <==> e in AllEndings(numbers) && Admitted(q, e)
    ensures NoDuplicates(Ranked(q, numbers))
  {
    var ranked := Ranked(q, numbers);
    var candidates := Candidates(q, numbers);
    StableSort.SortSameElements(ScoreFor(q), candidates);
    DistinctPermutation(candidates, ranked);
  }

  /** Each suggestion is one of the ranked candidates. */
  lemma SuggestionIsRanked(q: string, numbers: seq<Entry>)
    ensures forall e :: e in SimilarEndings(q, numbers) ==> e in Ranked(q, numbers)
  {
    var ranked := Ranked(q, numbers);
    var r := SimilarEndings(q, numbers);
    forall e | e in r
      ensures e in ranked
    {
      var i :| 0 <= i < |r| && r[i] == e;
      assert ranked[i] == e;
    }
  }

  /** No suggestion is repeated, and the term itself is never suggested. */
  lemma SimilarEndingsDistinct(q: string, numbers: seq<Entry>)
    ensures NoDuplicates(SimilarEndings(q, numbers))
    ensures q !in SimilarEndings(q, numbers)
  {
    RankedIsPermutation(q, numbers);
    if q in SimilarEndings(q, numbers) {
      SuggestionIsRanked(q, numbers);
    }
  }

  /** Every suggestion is a non-empty termination of some stored number. */
  lemma SimilarEndingsAreEndings(q: string, numbers: seq<Entry>)
    ensures forall e :: e in SimilarEndings(q, numbers) ==>
      e != "" && exists n :: n in numbers && EndsWith(n.number, e)
  {
    SuggestionIsRanked(q, numbers);
    RankedIsPermutation(q, numbers);
    forall e | e in SimilarEndings(q, numbers)
      ensures e != "" && exists n :: n in numbers && EndsWith(n.number, e)
    {
      AllEndingsAreSuffixes(numbers, e);
    }
  }

  /** Every suggestion contains the term, or has the term's length with both
      parsing to integers at most 2 apart. */
  lemma SimilarEndingsAdmission(q: string, numbers: seq<Entry>)
    ensures forall e :: e in SimilarEndings(q, numbers) ==>
      || Contains(e, q)
      || (|e| == |q| && IsClose(e, q))
  {
    SuggestionIsRanked(q, numbers);
    RankedIsPermutation(q, numbers);
    assert forall e :: e in SimilarEndings(q, numbers) ==> Admitted(q, e);
  }

  /** The set of admitted terminations of all entries. */
  function AdmittedEndings(q: string, numbers: seq<Entry>): set<string> {
    set e | e in AllEndings(numbers) && Admitted(q, e)
  }

  /** For a non-blank term, five suggestions are shown when at least five
      distinct terminations are admitted, otherwise all of them. */
  lemma SimilarEndingsCount(q: string, numbers: seq<Entry>)
    requires Trim(q) != ""
    ensures |SimilarEndings(q, numbers)| ==
      if |AdmittedEndings(q, numbers)| < MaxSuggestions then |AdmittedEndings(q, numbers)| else MaxSuggestions
    ensures |SimilarEndings(q, numbers)| < MaxSuggestions ==>
      forall n, e :: n in numbers && EndsWith(n.number, e) && e != "" && Admitted(q, e) ==>
        e in SimilarEndings(q, numbers)
  {
    var ranked := Ranked(q, numbers);
    RankedIsPermutation(q, numbers);
    assert ToSet(ranked) == AdmittedEndings(q, numbers);
    DistinctCardinality(ranked);
    forall n, e | n in numbers && EndsWith(n.number, e) && e != "" && Admitted(q, e)
      ensures e in ranked
    {
      AllEndingsAreSuffixes(numbers, e);
    }
  }

  /** Every admitted termination and the term parse, so every score is a
      number and the comparator is a consistent total preorder. */
  ghost predicate FullyNumeric(q: string, numbers: seq<Entry>) {
    && ParseInt(q).Some?
    && forall e :: e in AllEndings(numbers) && Admitted(q, e) ==> ParseInt(e).Some?
  }

  lemma FullyNumericScores(q: string, numbers: seq<Entry>)
    requires FullyNumeric(q, numbers)
    ensures StableSort.AllDefined(ScoreFor(q), Candidates(q, numbers))
  {
    var candidates := Candidates(q, numbers);
    forall i | 0 <= i < |candidates|
      ensures Score(q, candidates[i]).Some?
    {
      assert candidates[i] in candidates;
    }
  }

  /** Every score is a number and no score is smaller than an earlier one. */
  ghost predicate OrderedByScore(q: string, r: seq<string>) {
    StableSort.OrderedBy(ScoreFor(q), r)
  }

  /** When the term and every admitted termination parse, the suggestions
      come in non-decreasing order of score. */
  lemma SimilarEndingsRanked(q: string, numbers: seq<Entry>)
    requires FullyNumeric(q, numbers)
    ensures OrderedByScore(q, SimilarEndings(q, numbers))
  {
    FullyNumericScores(q, numbers);
    StableSort.SortOrdersAll(ScoreFor(q), Candidates(q, numbers));
    StableSort.OrderedByPrefix(ScoreFor(q), SimilarEndings(q, numbers), Ranked(q, numbers));
  }

  /** No suggestion scores higher than a ranked candidate that `slice(0, 5)`
      cut off: the suggestions are the best-scored candidates. */
  ghost predicate ScoresNoHigherThanRest(q: string, shown: seq<string>, ranked: seq<string>) {
    StableSort.LeastKeys(ScoreFor(q), shown, ranked)
  }

  /** When the term and every admitted termination parse, the five shown
      are the lowest-scored candidates: every candidate left out scores at
      least as much as every suggestion. */
  lemma SimilarEndingsAreLowest(q: string, numbers: seq<Entry>)
    requires FullyNumeric(q, numbers)
    ensures ScoresNoHigherThanRest(q, SimilarEndings(q, numbers), Ranked(q, numbers))
  {
    FullyNumericScores(q, numbers);
    StableSort.SortOrdersAll(ScoreFor(q), Candidates(q, numbers));
    StableSort.OrderedPrefixIsLeast(ScoreFor(q), SimilarEndings(q, numbers), Ranked(q, numbers));
  }

  /** Ties keep `Set` insertion order: among suggestions of equal score the
      order is that of the candidates, which is the order in which their
      first occurrence was enumerated. */
  lemma SimilarEndingsTiesKeepInsertionOrder(q: string, numbers: seq<Entry>, k: int)
    requires FullyNumeric(q, numbers)
    ensures StableSort.KeyClass(ScoreFor(q), SimilarEndings(q, numbers), k)
         <= StableSort.KeyClass(ScoreFor(q), Candidates(q, numbers), k)
    ensures forall i, j :: 0 <= i < j < |Candidates(q, numbers)| ==>
      IndexOf(Filter(AdmittedFor(q), AllEndings(numbers)), Candidates(q, numbers)[i])
        < IndexOf(Filter(AdmittedFor(q), AllEndings(numbers)), Candidates(q, numbers)[j])
  {
    var ranked := Ranked(q, numbers);
    FullyNumericScores(q, numbers);
    StableSort.SortIsStable(ScoreFor(q), Candidates(q, numbers), k);
    if Trim(q) == "" {
      StableSort.KeyClassSingleton(ScoreFor(q), "", k);
      assert StableSort.KeyClass(ScoreFor(q), [], k) == [];
    } else {
      StableSort.KeyClassOfPrefix(ScoreFor(q), ranked, |SimilarEndings(q, numbers)|, k);
    }
    DedupKeepsFirstOccurrenceOrder(Filter(AdmittedFor(q), AllEndings(numbers)));
  }

  /** When suggestions are computed no number ends with the term, so no
      termination equals the term: the exact-match exclusion never fires. */
  lemma ExactMatchExclusionUnreachableWhenGated(q: string, numbers: seq<Entry>)
    requires DirectFilter(numbers, q) == []
    ensures q !in AllEndings(numbers)
  {
    AllEndingsAreSuffixes(numbers, q);
    forall n | n in numbers
      ensures !EndsWith(n.number, q)
    {
      assert n !in DirectFilter(numbers, q);
    }
  }

  // ------------------------------------------- the loops of getSimilarEndings

  /** The `Set` contents after offering the terminations in `seen`, in
      order, to the admission test. */
  function Pool(q: string, seen: seq<string>): seq<string> {
    if seen == [] then []
    else
      var before := Pool(q, seen[..|seen| - 1]);
      var e := seen[|seen| - 1];
      if Admitted(q, e) && e !in before then before + [e] else before
  }

  lemma PoolStep(q: string, seen: seq<string>, e: string)
    ensures Pool(q, seen + [e])
         == if Admitted(q, e) && e !in Pool(q, seen) then Pool(q, seen) + [e] else Pool(q, seen)
  {
    assert (seen + [e])[..|seen|] == seen;
  }

  /** Offering terminations one at a time and deduplicating the admitted
      ones at the end give the same `Set`. */
  lemma {:induction false} PoolIsCandidates(q: string, seen: seq<string>)
    ensures Pool(q, seen) == Dedup(Filter(AdmittedFor(q), seen))
    decreases |seen|
  {
    if seen != [] {
      var prefix := seen[..|seen| - 1];
      PoolIsCandidates(q, prefix);
      var f := Filter(AdmittedFor(q), prefix);
      if Admitted(q, seen[|seen| - 1]) {
        assert (f + [seen[|seen| - 1]])[..|f|] == f;
      }
    }
  }

  /** The body of the inner loop (lines that skip the term itself, then test
      containment, numeric closeness and equal length); `searchNum` is
      `parseInt` of the term. */
  method AdmitEnding(q: string, searchNum: Option<int>, ending: string) returns (admit: bool)
    requires searchNum == ParseInt(q)
    ensures admit == Admitted(q, ending)
  {
    if ending == q {
      return false;
    }
    var endingNum := ParseInt(ending);
    var containsSearch := Contains(ending, q);
    var isNumericallyClose := endingNum.Some? && searchNum.Some?
                              && -2 <= endingNum.value - searchNum.value <= 2;
    var sharesSameLength := |ending| == |q|;
    admit := containsSearch || (isNumericallyClose && sharesSameLength);
  }

  /** Visiting one more termination of a number string offers it to the
      `Set` built so far. */
  lemma PoolNextEnding(q: string, seen: seq<string>, numStr: string, done: nat)
    requires done < |numStr|
    ensures var before := Pool(q, seen + ShortEndings(numStr, done));
      var ending := numStr[|numStr| - (done + 1)..];
      Pool(q, seen + ShortEndings(numStr, done + 1))
        == if Admitted(q, ending) && ending !in before then before + [ending] else before
  {
    var ending := numStr[|numStr| - (done + 1)..];
    assert seen + ShortEndings(numStr, done + 1) == (seen + ShortEndings(numStr, done)) + [ending];
    PoolStep(q, seen + ShortEndings(numStr, done), ending);
  }

  /** The inner loop of `getSimilarEndings` over one number string: adds its
      admitted terminations, shortest first, to the `Set` built so far. */
  method AddEndings(q: string, numStr: string, ghost seen: seq<string>, uniqueEndings: seq<string>)
    returns (updated: seq<string>)
    requires uniqueEndings == Pool(q, seen)
    ensures updated == Pool(q, seen + Endings(numStr))
  {
    var searchNum := ParseInt(q);
    updated := uniqueEndings;
    // `done` counts the terminations already visited; the JavaScript
    // loop's `i` is `done + 1`, the length of the next termination.
    var done := 0;
    assert seen + ShortEndings(numStr, 0) == seen;
    while done < |numStr|
      invariant 0 <= done <= |numStr|
      invariant updated == Pool(q, seen + ShortEndings(numStr, done))
    {
      var ending := numStr[|numStr| - (done + 1)..];
      PoolNextEnding(q, seen, numStr, done);
      var admit := AdmitEnding(q, searchNum, ending);
      if admit && ending !in updated {
        updated := updated + [ending];
      }
      done := done + 1;
    }
  }

  /** `getSimilarEndings` as written: a `forEach` over the entries whose
      body is `AddEndings`, then the sort and `slice(0, 5)`. It computes
      exactly `SimilarEndings`. */
  method ComputeSimilarEndings(q: string, numbers: seq<Entry>) returns (r: seq<string>)
    ensures r == SimilarEndings(q, numbers)
  {
    if Trim(q) == "" {
      return [];
    }
    var uniqueEndings: seq<string> := [];
    var k := 0;
    while k < |numbers|
      invariant 0 <= k <= |numbers|
      invariant uniqueEndings == Pool(q, AllEndings(numbers[..k]))
    {
      assert numbers[..k + 1][..k] == numbers[..k];
      uniqueEndings := AddEndings(q, numbers[k].number, AllEndings(numbers[..k]), uniqueEndings);
      k := k + 1;
    }
    assert numbers[..|numbers|] == numbers;
    PoolIsCandidates(q, AllEndings(numbers));
    var sorted := StableSort.Sort(ScoreFor(q), uniqueEndings);
    r := Take(sorted, MaxSuggestions);
  }
}

=== FILE: seqs.dfy ===
/** Sequence helpers mirroring the JavaScript array operations the core
    relies on: `Array.prototype.filter`, an insertion-ordered `Set`
    (`Array.from(new Set(...))`), `slice(0, n)`, and dropping the missing
    values of a mapped array. */
module Seqs {
  import opened Wrappers

  /** No element occurs twice. */
  predicate NoDuplicates<T(==)>(s: seq<T>) {
    forall i, j :: 0 <= i < j < |s| ==> s[i] != s[j]
  }

  /** The elements of `s`, forgetting order and multiplicity. */
  function ToSet<T>(s: seq<T>): set<T> {
    set x | x in s
  }

  /** `a` can be obtained from `b` by deleting elements (order is kept). */
  ghost predicate IsSubsequence<T>(a: seq<T>, b: seq<T>)
    decreases |b|
  {
    || a == []
    || (&& b != []
        && (|| (a[|a| - 1] == b[|b| - 1] && IsSubsequence(a[..|a| - 1], b[..|b| - 1]))
            || IsSubsequence(a, b[..|b| - 1])))
  }

  /** `Array.prototype.filter`: the elements satisfying `p`, in order and
      with their multiplicities. */
  function Filter<T(!new)>(p: T -> bool, s: seq<T>): (r: seq<T>)
    ensures |r| <= |s|
    ensures forall x :: x in r <==> x in s && p(x)
    ensures forall x :: multiset(r)[x] == if p(x) then multiset(s)[x] else 0
  {
    if s == [] then []
    else
      var prefix := s[..|s| - 1];
      assert s == prefix + [s[|s| - 1]];
      var kept := Filter(p, prefix);
      if p(s[|s| - 1]) then kept + [s[|s| - 1]] else kept
  }

  /** Filtering an extended sequence filters the extension separately. */
  lemma {:induction false} FilterAppend<T(!new)>(p: T -> bool, a: seq<T>, b: seq<T>)
    ensures Filter(p, a + b) == Filter(p, a) + Filter(p, b)
    decreases |b|
  {
    if b == [] {
      assert a + b == a;
    } else {
      var b' := b[..|b| - 1];
      assert (a + b)[..|a + b| - 1] == a + b';
      FilterAppend(p, a, b');
    }
  }

  /** The filter result keeps the order of its input. */
  lemma {:induction false} FilterIsSubsequence<T(!new)>(p: T -> bool, s: seq<T>)
    ensures IsSubsequence(Filter(p, s), s)
    decreases |s|
  {
    if s != [] {
      FilterIsSubsequence(p, s[..|s| - 1]);
      if p(s[|s| - 1]) {
        var r := Filter(p, s);
        assert r[..|r| - 1] == Filter(p, s[..|s| - 1]);
      }
    }
  }

  /** When every element passes, nothing is dropped. */
  lemma {:induction false} FilterKeepsAll<T(!new)>(p: T -> bool, s: seq<T>)
    requires forall x :: x in s ==> p(x)
    ensures Filter(p, s) == s
    decreases |s|
  {
    if s != [] {
      assert s[..|s| - 1] + [s[|s| - 1]] == s;
      FilterKeepsAll(p, s[..|s| - 1]);
    }
  }

  /** Position of the first occurrence of `x` in `s` (JavaScript `indexOf`). */
  function IndexOf<T(==)>(s: seq<T>, x: T): (i: nat)
    requires x in s
    ensures i < |s| && s[i] == x && x !in s[..i]
    ensures forall j :: 0 <= j < i ==> s[j] != x
  {
    if s[0] == x then 0 else 1 + IndexOf(s[1..], x)
  }

  /** A position holding `x` with no earlier `x` is the first occurrence. */
  lemma FirstOccurrenceIsIndexOf<T>(s: seq<T>, x: T, k: nat)
    requires k < |s| && s[k] == x && x !in s[..k]
    ensures IndexOf(s, x) == k
  {
    assert forall j :: 0 <= j < k ==> s[..k][j] == s[j];
  }

  /** First occurrences are not moved by extending the sequence. */
  lemma IndexOfPrefix<T>(s: seq<T>, m: nat, x: T)
    requires m <= |s| && x in s[..m]
    ensures IndexOf(s, x) == IndexOf(s[..m], x)
  {
    var k := IndexOf(s[..m], x);
    assert s[..k] == s[..m][..k];
    FirstOccurrenceIsIndexOf(s, x, k);
  }

  /** `Array.from(set)` after adding the elements of `s` one by one to an
      empty JavaScript `Set`: the distinct elements in order of first
      insertion. */
  function Dedup<T(!new,==)>(s: seq<T>): (r: seq<T>)
    ensures NoDuplicates(r)
    ensures forall x :: x in r <==> x in s
  {
    if s == [] then []
    else
      var seen := Dedup(s[..|s| - 1]);
      assert forall x :: x in s <==> x in s[..|s| - 1] || x == s[|s| - 1] by {
        assert s == s[..|s| - 1] + [s[|s| - 1]];
      }
      if s[|s| - 1] in seen then seen else seen + [s[|s| - 1]]
  }

  /** The deduplicated elements appear in the order of their first
      occurrence in the input, which is the iteration order of a
      JavaScript `Set`. */
  lemma {:induction false} DedupKeepsFirstOccurrenceOrder<T(!new)>(s: seq<T>)
    ensures forall i, j :: 0 <= i < j < |Dedup(s)| ==> IndexOf(s, Dedup(s)[i]) < IndexOf(s, Dedup(s)[j])
    decreases |s|
  {
    if s != [] {
      var n := |s| - 1;
      var prefix := s[..n];
      var seen := Dedup(prefix);
      DedupKeepsFirstOccurrenceOrder(prefix);
      assert s[..n] == prefix;
      var r := Dedup(s);
      forall i, j | 0 <= i < j < |r|
        ensures IndexOf(s, r[i]) < IndexOf(s, r[j])
      {
        assert r[i] == seen[i] && r[i] in seen;
        IndexOfPrefix(s, n, r[i]);
        if j < |seen| {
          assert r[j] == seen[j] && r[j] in seen;
          IndexOfPrefix(s, n, r[j]);
        } else {
          assert r[j] == s[n] && s[n] !in seen;
          FirstOccurrenceIsIndexOf(s, s[n], n);
        }
      }
    }
  }

  /** A duplicate-free sequence has as many elements as its set. */
  lemma {:induction false} DistinctCardinality<T>(s: seq<T>)
    requires NoDuplicates(s)
    ensures |ToSet(s)| == |s|
    decreases |s|
  {
    if s != [] {
      var prefix := s[..|s| - 1];
      DistinctCardinality(prefix);
      assert ToSet(s) == ToSet(prefix) + {s[|s| - 1]} by {
        assert s == prefix + [s[|s| - 1]];
      }
      assert s[|s| - 1] !in ToSet(prefix);
    }
  }

  /** In a duplicate-free sequence every element occurs once. */
  lemma {:induction false} DistinctCountsAtMostOne<T>(s: seq<T>, x: T)
    requires NoDuplicates(s)
    ensures multiset(s)[x] <= 1
    decreases |s|
  {
    if s != [] {
      var prefix := s[..|s| - 1];
      DistinctCountsAtMostOne(prefix, x);
      assert s == prefix + [s[|s| - 1]];
      if x == s[|s| - 1] {
        assert x !in prefix;
      }
    }
  }

  lemma RepeatCountsTwice<T>(s: seq<T>, i: nat, j: nat)
    requires i < j < |s|
    ensures s[i] == s[j] ==> multiset(s)[s[i]] >= 2
  {
    assert s == s[..j] + s[j..];
    assert s[i] in s[..j] && s[j] in s[j..];
  }

  /** Reordering a duplicate-free sequence cannot create duplicates. */
  lemma DistinctPermutation<T>(a: seq<T>, b: seq<T>)
    requires multiset(a) == multiset(b) && NoDuplicates(a)
    ensures NoDuplicates(b)
  {
    forall i, j | 0 <= i < j < |b|
      ensures b[i] != b[j]
    {
      RepeatCountsTwice(b, i, j);
      DistinctCountsAtMostOne(a, b[i]);
    }
  }

  /** `slice(0, n)`: the first `n` elements, or all of them when fewer. */
  function Take<T>(s: seq<T>, n: nat): (r: seq<T>)
    ensures |r| == if |s| <= n then |s| else n
    ensures r <= s
  {
    if |s| <= n then s else s[..n]
  }

  /** The present values, in order: what remains of a mapped array after the
      entries that came out `undefined` or `NaN` are filtered away. */
  function Present<T>(xs: seq<Option<T>>): (r: seq<T>)
    ensures |r| <= |xs|
  {
    if xs == [] then []
    else
      var before := Present(xs[..|xs| - 1]);
      match xs[|xs| - 1]
      case Some(x) => before + [x]
      case None => before
  }

  /** Exactly the present values are kept. */
  lemma {:induction false} PresentValues<T>(xs: seq<Option<T>>)
    ensures forall x :: x in Present(xs) <==> Some(x) in xs
    decreases |xs|
  {
    if xs != [] {
      var prefix := xs[..|xs| - 1];
      PresentValues(prefix);
      assert xs == prefix + [xs[|xs| - 1]];
    }
  }

  /** The values of a concatenation are the values of each part, in order. */
  lemma {:induction false} PresentAppend<T>(xs: seq<Option<T>>, ys: seq<Option<T>>)
    ensures Present(xs + ys) == Present(xs) + Present(ys)
    decreases |ys|
  {
    if ys == [] {
      assert xs + ys == xs;
    } else {
      var prefix := ys[..|ys| - 1];
      assert (xs + ys)[..|xs + ys| - 1] == xs + prefix;
      PresentAppend(xs, prefix);
    }
  }

  /** Nothing is kept exactly when no value is present. */
  lemma {:induction false} PresentEmpty<T>(xs: seq<Option<T>>)
    ensures Present(xs) == [] <==> forall i :: 0 <= i < |xs| ==> xs[i].None?
    decreases |xs|
  {
    if xs != [] {
      var n := |xs| - 1;
      PresentEmpty(xs[..n]);
      assert forall i :: 0 <= i < n ==> xs[..n][i] == xs[i];
    }
  }

  /** When every value is present, none is dropped. */
  lemma {:induction false} PresentOfAllSome<T>(values: seq<T>)
    ensures Present(seq(|values|, i requires 0 <= i < |values| => Some(values[i]))) == values
    decreases |values|
  {
    if values != [] {
      var n := |values| - 1;
      PresentOfAllSome(values[..n]);
      var xs := seq(|values|, i requires 0 <= i < |values| => Some(values[i]));
      assert xs[..n] == seq(n, i requires 0 <= i < n => Some(values[..n][i]));
      assert values[..n] + [values[n]] == values;
    }
  }
}

=== FILE: stable_sort.dfy ===
/** `Array.prototype.sort` with a numeric comparator `(a, b) => key(a) - key(b)`.

    A key is `None` when it is JavaScript `NaN`; the comparator result is
    then `NaN`, which the engine reads as "equal". The model is a stable
    insertion sort: each element, taken in input order, is placed in front
    of the first already-placed element whose key is strictly larger.
    When every key is defined the comparator is a consistent total
    preorder, and any stable sort (the engine's included) yields exactly
    this sequence. With some keys undefined the comparator is inconsistent
    and the order the engine produces is implementation-defined; the
    insertion sort is then one conforming result, not necessarily the
    engine's: for keys 5, NaN, 3 the model gives 3, 5, NaN, while an engine
    that only compares neighbours sees every pair as ordered and keeps the
    input. */
module StableSort {
  import opened Wrappers
  import Seqs

  /** The comparator result `key(a) - key(b)` is negative; false as soon as
      one side is `NaN`. */
  predicate Before(a: Option<int>, b: Option<int>) {
    a.Some? && b.Some? && a.value < b.value
  }

  /** Every element has a defined key, so the comparator is a total preorder. */
  ghost predicate AllDefined<T>(key: T -> Option<int>, s: seq<T>) {
    forall i :: 0 <= i < |s| ==> key(s[i]).Some?
  }

  /** Keys never decrease between two elements whose keys are both defined. */
  ghost predicate SortedByKey<T>(key: T -> Option<int>, s: seq<T>) {
    forall i, j :: 0 <= i < j < |s| && key(s[i]).Some? && key(s[j]).Some? ==>
      key(s[i]).value <= key(s[j]).value
  }

  /** Places `x` in front of the first element of `s` it must precede. */
  function Insert<T>(key: T -> Option<int>, x: T, s: seq<T>): (r: seq<T>)
    ensures multiset(r) == multiset(s) + multiset{x}
    ensures |r| == |s| + 1
  {
    if s == [] then [x]
    else if Before(key(x), key(s[0])) then [x] + s
    else
      assert s == [s[0]] + s[1..];
      [s[0]] + Insert(key, x, s[1..])
  }

  /** Inserts the elements of `s` one by one, in input order. */
  function Sort<T>(key: T -> Option<int>, s: seq<T>): (r: seq<T>)
    ensures multiset(r) == multiset(s)
    ensures |r| == |s|
  {
    if s == [] then []
    else
      assert s == s[..|s| - 1] + [s[|s| - 1]];
      Insert(key, s[|s| - 1], Sort(key, s[..|s| - 1]))
  }

  /** The sort neither loses nor invents elements. */
  lemma SortSameElements<T>(key: T -> Option<int>, s: seq<T>)
    ensures forall x :: x in Sort(key, s) <==> x in s
  {
    var r := Sort(key, s);
    assert forall x :: x in r <==> x in multiset(r);
  }

  lemma {:induction false} InsertKeepsSorted<T>(key: T -> Option<int>, x: T, s: seq<T>)
    requires SortedByKey(key, s)
    ensures SortedByKey(key, Insert(key, x, s))
    decreases |s|
  {
    if s == [] {
    } else if Before(key(x), key(s[0])) {
    } else {
      var tail := Insert(key, x, s[1..]);
      InsertKeepsSorted(key, x, s[1..]);
      var r := [s[0]] + tail;
      forall j | 0 < j < |r| && key(s[0]).Some? && key(r[j]).Some?
        ensures key(s[0]).value <= key(r[j]).value
      {
        assert r[j] in multiset(tail);
        if r[j] != x {
          assert r[j] in s[1..];
          var k :| 0 <= k < |s[1..]| && s[1..][k] == r[j];
          assert s[k + 1] == r[j];
        }
      }
    }
  }

  /** Sortedness of the result: whenever two elements both have a key,
      the earlier one's key is not larger. */
  lemma {:induction false} SortIsSorted<T>(key: T -> Option<int>, s: seq<T>)
    ensures SortedByKey(key, Sort(key, s))
    decreases |s|
  {
    if s != [] {
      SortIsSorted(key, s[..|s| - 1]);
      InsertKeepsSorted(key, s[|s| - 1], Sort(key, s[..|s| - 1]));
    }
  }

  /** The elements whose key is `Some(k)`, in order: one equivalence class of
      the comparator. */
  function KeyClass<T>(key: T -> Option<int>, s: seq<T>, k: int): (r: seq<T>)
    ensures forall x :: x in r ==> x in s && key(x) == Some(k)
  {
    if s == [] then []
    else
      var prefix := KeyClass(key, s[..|s| - 1], k);
      if key(s[|s| - 1]) == Some(k) then prefix + [s[|s| - 1]] else prefix
  }

  lemma {:induction false} KeyClassAppend<T>(key: T -> Option<int>, a: seq<T>, b: seq<T>, k: int)
    ensures KeyClass(key, a + b, k) == KeyClass(key, a, k) + KeyClass(key, b, k)
    decreases |b|
  {
    if b == [] {
      assert a + b == a;
    } else {
      var b' := b[..|b| - 1];
      assert (a + b)[..|a + b| - 1] == a + b';
      KeyClassAppend(key, a, b', k);
    }
  }

  lemma KeyClassSingleton<T>(key: T -> Option<int>, x: T, k: int)
    ensures KeyClass(key, [x], k) == if key(x) == Some(k) then [x] else []
  {
    assert [x][..0] == [];
  }

  /** A class is a prefix-respecting view: truncating the sequence truncates
      each class. */
  lemma KeyClassOfPrefix<T>(key: T -> Option<int>, s: seq<T>, m: nat, k: int)
    requires m <= |s|
    ensures KeyClass(key, s[..m], k) <= KeyClass(key, s, k)
  {
    assert s == s[..m] + s[m..];
    KeyClassAppend(key, s[..m], s[m..], k);
  }

  lemma {:induction false} KeyClassEmpty<T>(key: T -> Option<int>, s: seq<T>, k: int)
    requires forall i :: 0 <= i < |s| ==> key(s[i]) != Some(k)
    ensures KeyClass(key, s, k) == []
    decreases |s|
  {
    if s != [] {
      KeyClassEmpty(key, s[..|s| - 1], k);
    }
  }

  /** In a sorted sequence with defined keys, the first key is the least. */
  lemma FirstKeyIsLeast<T>(key: T -> Option<int>, s: seq<T>)
    requires s != [] && AllDefined(key, s) && SortedByKey(key, s)
    ensures forall i :: 0 <= i < |s| ==> key(s[0]).value <= key(s[i]).value
  {
  }

  lemma InsertBehindHead<T>(key: T -> Option<int>, x: T, s: seq<T>)
    requires s != [] && !Before(key(x), key(s[0]))
    ensures Insert(key, x, s) == [s[0]] + Insert(key, x, s[1..])
  {
  }

  lemma KeyClassOfCons<T>(key: T -> Option<int>, s: seq<T>, k: int)
    requires s != []
    ensures KeyClass(key, s, k) == KeyClass(key, [s[0]], k) + KeyClass(key, s[1..], k)
  {
    assert [s[0]] + s[1..] == s;
    KeyClassAppend(key, [s[0]], s[1..], k);
  }

  /** Behind the head, the class of the result is the head's class followed
      by the class of the insertion into the tail. */
  lemma KeyClassBehindHead<T>(key: T -> Option<int>, x: T, s: seq<T>, k: int)
    requires s != [] && !Before(key(x), key(s[0]))
    ensures KeyClass(key, Insert(key, x, s), k)
         == KeyClass(key, [s[0]], k) + KeyClass(key, Insert(key, x, s[1..]), k)
  {
    InsertBehindHead(key, x, s);
    KeyClassAppend(key, [s[0]], Insert(key, x, s[1..]), k);
  }

  /** The insertion point for `x` is not reached yet when `x` does not
      precede the head. */
  lemma InsertPastHead<T>(key: T -> Option<int>, x: T, s: seq<T>, k: int)
    requires s != [] && !Before(key(x), key(s[0]))
    requires KeyClass(key, Insert(key, x, s[1..]), k)
          == KeyClass(key, s[1..], k) + (if key(x) == Some(k) then [x] else [])
    ensures KeyClass(key, Insert(key, x, s), k)
         == KeyClass(key, s, k) + (if key(x) == Some(k) then [x] else [])
  {
    KeyClassBehindHead(key, x, s, k);
    KeyClassOfCons(key, s, k);
    Reassociate(KeyClass(key, Insert(key, x, s), k), KeyClass(key, Insert(key, x, s[1..]), k),
                KeyClass(key, s, k), KeyClass(key, [s[0]], k), KeyClass(key, s[1..], k),
                if key(x) == Some(k) then [x] else []);
  }

  lemma Reassociate<T>(whole: seq<T>, rest: seq<T>, joined: seq<T>, head: seq<T>, tail: seq<T>, added: seq<T>)
    requires whole == head + rest && rest == tail + added && joined == head + tail
    ensures whole == joined + added
  {
  }

  /** `x` goes in front of a sequence whose keys all exceed its own, so it
      joins no existing class member. */
  lemma InsertAtHead<T>(key: T -> Option<int>, x: T, s: seq<T>, k: int)
    requires s != [] && AllDefined(key, s) && SortedByKey(key, s)
    requires Before(key(x), key(s[0]))
    ensures KeyClass(key, Insert(key, x, s), k)
         == KeyClass(key, s, k) + (if key(x) == Some(k) then [x] else [])
  {
    KeyClassSingleton(key, x, k);
    KeyClassAppend(key, [x], s, k);
    if key(x) == Some(k) {
      FirstKeyIsLeast(key, s);
      KeyClassEmpty(key, s, k);
    }
  }

  lemma {:induction false} InsertIsStable<T>(key: T -> Option<int>, x: T, s: seq<T>, k: int)
    requires AllDefined(key, s) && key(x).Some? && SortedByKey(key, s)
    ensures KeyClass(key, Insert(key, x, s), k)
         == KeyClass(key, s, k) + (if key(x) == Some(k) then [x] else [])
    decreases |s|
  {
    if s == [] {
      KeyClassSingleton(key, x, k);
    } else if Before(key(x), key(s[0])) {
      InsertAtHead(key, x, s, k);
    } else {
      InsertIsStable(key, x, s[1..], k);
      InsertPastHead(key, x, s, k);
    }
  }

  lemma SortKeepsDefined<T>(key: T -> Option<int>, s: seq<T>)
    requires AllDefined(key, s)
    ensures AllDefined(key, Sort(key, s))
  {
    var r := Sort(key, s);
    forall i | 0 <= i < |r|
      ensures key(r[i]).Some?
    {
      assert r[i] in multiset(r);
      assert r[i] in multiset(s);
      var j :| 0 <= j < |s| && s[j] == r[i];
    }
  }

  /** Every key is defined and no key is smaller than an earlier one. */
  ghost predicate OrderedBy<T>(key: T -> Option<int>, s: seq<T>) {
    forall i, j :: 0 <= i < j < |s| ==>
      key(s[i]).Some? && key(s[j]).Some? && key(s[i]).value <= key(s[j]).value
  }

  /** With every key defined, the sort orders all elements by key. */
  lemma SortOrdersAll<T>(key: T -> Option<int>, s: seq<T>)
    requires AllDefined(key, s)
    ensures OrderedBy(key, Sort(key, s))
  {
    SortKeepsDefined(key, s);
    SortIsSorted(key, s);
  }

  /** A prefix of an ordered sequence is ordered. */
  lemma OrderedByPrefix<T>(key: T -> Option<int>, r: seq<T>, s: seq<T>)
    requires r <= s && OrderedBy(key, s)
    ensures OrderedBy(key, r)
  {
    forall i, j | 0 <= i < j < |r|
      ensures key(r[i]).Some? && key(r[j]).Some? && key(r[i]).value <= key(r[j]).value
    {
      assert r[i] == s[i] && r[j] == s[j];
      OrderedPair(key, s, i, j);
    }
  }

  /** Every key of `r` is defined and no larger than any key of `s` from
      position `|r|` on: `r` holds the least keys of `s`. */
  ghost predicate LeastKeys<T>(key: T -> Option<int>, r: seq<T>, s: seq<T>) {
    forall i, j :: 0 <= i < |r| <= j < |s| ==>
      key(r[i]).Some? && key(s[j]).Some? && key(r[i]).value <= key(s[j]).value
  }

  /** A prefix of an ordered sequence holds its least keys. */
  lemma OrderedPrefixIsLeast<T>(key: T -> Option<int>, r: seq<T>, s: seq<T>)
    requires r <= s && OrderedBy(key, s)
    ensures LeastKeys(key, r, s)
  {
    forall i, j | 0 <= i < |r| <= j < |s|
      ensures key(s[i]).Some? && key(s[j]).Some? && key(s[i]).value <= key(s[j]).value
    {
      OrderedPair(key, s, i, j);
    }
    assert forall i | 0 <= i < |r| :: r[i] == s[i];
  }

  lemma OrderedPair<T>(key: T -> Option<int>, s: seq<T>, i: nat, j: nat)
    requires OrderedBy(key, s) && i < j < |s|
    ensures key(s[i]).Some? && key(s[j]).Some? && key(s[i]).value <= key(s[j]).value
  {
  }

  /** Stability: restricted to any one key value, the sort is the identity,
      so elements the comparator calls equal keep their input order. */
  lemma {:induction false} SortIsStable<T>(key: T -> Option<int>, s: seq<T>, k: int)
    requires AllDefined(key, s)
    ensures KeyClass(key, Sort(key, s), k) == KeyClass(key, s, k)
    decreases |s|
  {
    if s != [] {
      var prefix := s[..|s| - 1];
      var x := s[|s| - 1];
      SortIsStable(key, prefix, k);
      SortIsSorted(key, prefix);
      SortKeepsDefined(key, prefix);
      InsertIsStable(key, x, Sort(key, prefix), k);
    }
  }
}

=== FILE: wrappers.dfy ===
/** The optional-value type used throughout the model: `None` stands for the
    JavaScript values `undefined` (a missing field) and `NaN` (a failed
    `parseInt`). */
module Wrappers {

  datatype Option<+T> = None | Some(value: T)
}
